=== FILE: README.md ===
# Alipay payment acquirer: signing and notification checks

This project models, in Dafny, the core of an Odoo payment acquirer for
Alipay and proves what that core promises. The core has three parts.

- **The canonicaliser and signing helpers** (`models/func.py`).
  - `ordered_data` rewrites every dict-valued entry of a request dict to compact JSON, in place. It returns the entries sorted by key.
  - `sign_data` drops `sign` and signs the `k=v&k=v` join of the sorted entries with RSA2 (PKCS#1 v1.5 over SHA-256, base64 without line breaks).
  - `verify` drops `sign_type` and checks a signature against the same join.
  - `_base_params` builds the envelope of a modern API request.
- **The notification endpoints** (`controllers/main.py`).
  - The signature check of a posted notification, for the RSA2 scheme only.
  - The confirmation query sent back to Alipay.
  - The choice of the page the buyer returns to.
  - The return and notify routes. Each calls `form_feedback` only on a notification it accepts.
- **The acquirer and transaction extensions** (`models/payment.py`).
  - The gateway URL.
  - The signed form values sent to Alipay. They merge the caller's values with the protocol fields and sign an 11-key whitelist.
  - How a notification finds its transaction.
  - The outcome it writes: `done` for a paid status and `error` otherwise.

Modules, one per concern:

- **`Wrappers`**: `Option` and `Result`.
- **`PyData`**: the values a request dict holds.
  - A Python dict is the sequence of its entries in insertion order, with unique keys.
  - `Dict` is a class for the dicts the code mutates in place (`pop`, `d[k] = v`, `update`).
  - Exceptions are the `Error` cases of a `Result`.
- **`Json`**: `json.dumps` with both separator settings the code uses, and `str()` of a value.
- **`KeyOrder`**: Python's string order and `sorted()` of a dict's entries.
- **`Func`**: `models/func.py`. The cryptography is a `Crypto` record of functions passed as a parameter. The predicate `Sound` states the sign/verify and base64 round trips that the end-to-end lemmas assume.
- **`Routes`**: the route and confirmation-endpoint constants of `controllers/main.py`, which `models/payment.py` also reads.
- **`Payment`**: `models/payment.py`. The transaction table is the class `TransactionStore`, whose records `form_feedback` updates.
- **`Controller`**: `controllers/main.py`.

Behaviour of the code worth knowing:

- **Signature scheme.** Only `sign_type == "RSA2"` is checked. Any other scheme is refused outright. There is no SHA-1 variant.
- **Reserved keys.** `sign_data` removes `sign` but keeps `sign_type`, so `sign_type` is signed. `verify` removes `sign_type` but not `sign`, so its caller has to remove `sign`.
- **Empty values.** They are never dropped from the canonical string.
- **Exceptions.** None is caught. The following propagate as `Failure`s:
  - a missing `sign_type` or `notify_id`;
  - a signature that is not base64;
  - malformed `custom` JSON;
  - a notification that does not single out one transaction.
- **No idempotency.** A transaction already `done` is overwritten by a later accepted notification. `Payment.FeedbackOutcome` holds for every prior state.

## Model

| member | source | states |
|---|---|---|
| PyData.Lookup | models/payment.py:144 | `k in d` / `d[k]`: absent exactly when no entry has the key; a found value is the value of an entry with that key |
| PyData.Remove | models/func.py:51 | the entries after `pop(k)`: exactly the entries whose key is not `k`, none added |
| PyData.Put | models/func.py:46 | `d[k] = v`: a new key is appended last; an existing key keeps its position and takes `v`; every other entry stays where it was |
| PyData.GetOr | models/payment.py:144 | `d.get(k, default)`: the stored value when the key is present, the default otherwise |
| PyData.RemoveLookup | models/func.py:51 | after `pop(k)` the key is absent and every other key keeps its value |
| PyData.PutLookup | models/func.py:46 | after `d[k] = v`, `k` maps to `v`, keys stay unique and every other key keeps its value |
| PyData.UpdateLookup | models/func.py:30 | `dict.update`: a key of the argument takes the argument's value, every other key keeps the dict's value |
| PyData.UpdateFresh | models/payment.py:158 | updating with keys the dict does not hold appends them in their order |
| PyData.Dict.Pop | models/func.py:51 | returns the value under the key, or the default, and leaves the dict without that key |
| PyData.Dict.Set | models/func.py:46 | subscript assignment: replaces the value in place, or appends a new entry |
| PyData.Dict.Update | models/func.py:30 | `update` in place, with the semantics proved in `PyData.UpdateLookup` |
| Json.Dumps | models/func.py:46 | the JSON text of a dict is braced: it opens with '{' and closes with '}' |
| Json.DumpsIsPrintableAscii | models/func.py:46 | `json.dumps` output (ensure_ascii) is printable ASCII for every value |
| Json.CompactHasNoSpaces | models/func.py:46 | with `separators=(',', ':')` the JSON text of space-free data holds no space |
| KeyOrder.SortByKey | models/func.py:47 | `sorted()` of the entries is a permutation of them: the same entries with the same multiplicities |
| KeyOrder.LessTotal | models/func.py:47 | string order is total and asymmetric: distinct keys compare one way exactly |
| KeyOrder.LessTransitive | models/func.py:47 | string order is transitive |
| KeyOrder.SortByKeySorted | models/func.py:47 | `sorted()` of entries with unique keys is strictly ascending by key |
| KeyOrder.SortedUnique | models/func.py:47 | two strictly sorted sequences with the same entries are equal |
| KeyOrder.SortIgnoresInsertionOrder | models/func.py:47 | dicts with the same entries sort to the same sequence |
| Func.StripNewlines | models/func.py:69 | `.replace("\n", "")` leaves no newline, adds no character, and leaves newline-free text unchanged |
| Func.StripNewlinesConcat | models/func.py:69 | the replacement distributes over concatenation, so every other character is kept in order |
| Func.Compacted | models/func.py:41-46 | the dict after ordered_data: same keys in the same order, dict values replaced by their compact JSON, other values unchanged |
| Func.CompactedIdempotent | models/func.py:41-46 | rewriting an already rewritten dict changes nothing |
| Func.SortedEntries | models/func.py:47 | one pair per key of the dict and no others, each with its compacted value, in strictly ascending key order |
| Func.SortedEntriesIgnoreInsertionOrder | models/func.py:47 | the sorted pairs, and so the signed string, do not depend on insertion order |
| Func.SplitJoin | models/func.py:54 | a non-empty list of parts without '&', joined with `"&".join`, splits back into exactly those parts: no leading, trailing or doubled separator |
| Func.SignStringIgnoresSign | models/func.py:51-55 | an existing `sign` value never changes the string sign_data signs |
| Func.SignTypeIsSigned | models/func.py:51-55 | `sign_type` is not removed and its pair is part of the signed string |
| Func.VerifyStringIgnoresSignType | models/func.py:83-87 | a `sign_type` entry never changes the string verify checks |
| Func.VerifyKeepsSign | models/func.py:83-87 | verify does not remove `sign`: a `sign` left in the dict is part of the checked string |
| Func.CanonicalParts | models/func.py:53-54 | for a dict that is non-empty once `sign` is removed, and whose formatted pairs hold no '&', the signed string splits on '&' into exactly the `k=v` strings of the sorted pairs, in order |
| Func.SignAndVerifyAgree | models/func.py:50-88 | without `sign` and `sign_type`, sign_data and verify build the same string |
| Func.SetSign | models/func.py:59-70 | the signature text contains no newline |
| Func.RawVerify | models/func.py:73-79 | a non-string signature raises on `.encode`; non-base64 raises in decodebytes; otherwise the result is exactly the PKCS#1 verdict on the decoded signature |
| Func.SetSignVerifies | models/func.py:59-79 | with sound crypto, a set_sign signature verifies with the matching public key |
| Func.ComplexKeys | models/func.py:41-44 | the first loop collects exactly the keys whose values are dicts, each once, in dict order: their positions strictly increase |
| Func.CompactEntry | models/func.py:46 | one iteration of the second loop compacts exactly one more key in the caller's dict |
| Func.OrderedData | models/func.py:35-47 | leaves the caller's dict compacted and returns its sorted pairs, as stated in `Func.Compacted` and `Func.SortedEntries` |
| Func.SignData | models/func.py:50-56 | pops `sign` and compacts the caller's dict; returns set_sign of the canonical string of the dict without `sign` |
| Func.Verify | models/func.py:82-88 | pops `sign_type` if present and compacts the caller's dict; returns the check of the canonical string of the dict without `sign_type` |
| Func.BaseDefaults | models/func.py:21-29 | the seven defaults have unique keys and string values |
| Func.SignedEntries | models/func.py:31 | setting `sign` after sign_data appends it last; the signature covers exactly the entries before it; every other key keeps its compacted value |
| Func.EnvelopeLookups | models/func.py:21-31 | the envelope holds `sign`, every business key, and the defaults; business keys win |
| Func.BaseParams | models/func.py:11-32 | unique keys; last entry is `sign` over the canonical string of all the others; business fields override the defaults (charset, version, sign_type, app_id, method, timestamp, biz_content) |
| Payment.AlipayUrls | models/payment.py:37-46 | a one-entry dict under `alipay_form_url`: the production gateway exactly for `prod`, the sandbox gateway exactly otherwise |
| Payment.FormActionUrl | models/payment.py:37-46 | the mapi.alipay.com gateway exactly for `prod`, the sandbox gateway for every other environment |
| Payment.ProtocolKeysDistinct | models/payment.py:75-92 | the protocol dict literal repeats no key |
| Payment.ProtocolFields | models/payment.py:75-92 | the protocol fields, key by key, with unique keys |
| Payment.Project | models/payment.py:94 | the comprehension succeeds iff every whitelisted key is present; it then holds exactly those keys in order, else KeyError on a missing one |
| Payment.ProjectAgrees | models/payment.py:94 | the projection depends only on the whitelisted keys' values |
| Payment.SignedKeysSubset | models/payment.py:93 | the whitelist is the protocol keys minus exactly `sign_type`, `seller_email` and `seller_account_name` |
| Payment.SignedKeysAreProtocolFields | models/payment.py:93-94 | projecting the protocol fields on the whitelist never raises |
| Payment.ProtocolFieldValues | models/payment.py:84-91 | `out_trade_no` is the reference, `total_fee` the amount, `payment_type` '1', `body` '' |
| Payment.ProjectAfterUpdate | models/payment.py:74-94 | after merging, the whitelist projection sees only protocol values, never the caller's |
| Payment.MergeThenSign | models/payment.py:74-100 | the merged dict keeps every input key, protocol fields override, and `sign` is added |
| Payment.GenerateValues | models/payment.py:70-101 | KeyError on a missing reference, then amount; otherwise every input key kept, protocol fields override, out_trade_no/total_fee/payment_type/body set, `sign` the signature of exactly the 11 whitelisted fields |
| Payment.DictDisplay | models/payment.py:145-150 | a dict display yields a dict with unique keys, whatever keys it repeats |
| Payment.DisplayCollapse | models/payment.py:145-150 | the four-entry display `{a: v1, b: v2, a: v3, d: v4}` with a, b, d distinct, the shape of `res`, is `{a: v3, b: v2, d: v4}`: the repeated key keeps its first position and its last value |
| Payment.ValidateBaseEntries | models/payment.py:145-150 | `res` holds `acquirer_reference = trade_no`; the `out_trade_no` entry has no effect |
| Payment.ResThenOutcome | models/payment.py:145-158 | `res` updated with the status outcome is the base entries followed by the outcome entries |
| Payment.Outcome | models/payment.py:151-158 | the status entries: `state` first, `done` exactly for TRADE_FINISHED/TRADE_SUCCESS and `error` exactly otherwise, with unique keys |
| Payment.FormValidateValues | models/payment.py:145-158 | the values `write` receives have unique keys; their content is stated in `Payment.FormValidatePaid` and `Payment.FormValidateUnpaid` |
| Payment.FormValidateReferences | models/payment.py:145-150 | the written values carry trade_no, payment_type and buyer_id under their field names |
| Payment.FormValidatePaid | models/payment.py:151-154 | TRADE_FINISHED or TRADE_SUCCESS gives state `done` and `date_validate` = gmt_payment or now; no state_message |
| Payment.FormValidateUnpaid | models/payment.py:155-159 | any other status, a missing one included, gives state `error` with a message naming the status; no date_validate |
| Payment.Matching | models/payment.py:126 | the search returns exactly the records with that reference, in order |
| Payment.TxFromData | models/payment.py:117-135 | ValidationError when out_trade_no or trade_no is missing or empty, when no record matches, or when several do; otherwise the unique match |
| Payment.Feedback | models/payment.py:118-159 | form_feedback succeeds exactly when the notification singles out one transaction |
| Payment.WrittenFields | models/payment.py:154 | `write` stores every written value over the record's own |
| Payment.WrittenOutcome | models/payment.py:142-159 | after the write the record is `done` when paid and `error` otherwise, with acquirer_reference = trade_no |
| Payment.FeedbackOutcome | models/payment.py:117-159 | form_feedback changes only the matched record, which ends `done` or `error` by status whatever its prior state |
| Payment.TransactionStore.FormValidate | models/payment.py:142-159 | the record at the index is replaced by its write of the validated values; `write` returns True |
| Payment.TransactionStore.FormFeedback | models/payment.py:118-135 | writes the matched record on success; on ValidationError nothing changes and the error propagates |
| Controller.SignatureCheck | controllers/main.py:37-44 | KeyError iff sign_type is missing; False for any scheme other than RSA2; for RSA2 exactly `Func.RawVerify` of the popped `sign` over the post minus `sign` and `sign_type`, so a valid signature gives True and a non-base64 one raises |
| Controller.SignedContent | controllers/main.py:42-44 | for a post without `sign` and `sign_type`, the checked string is exactly the string sign_data would sign for it |
| Controller.SignedContentIgnoresSignature | controllers/main.py:42-44 | neither `sign` nor `sign_type` is part of the checked content |
| Controller.SignedNotificationPasses | controllers/main.py:37-44 | with sound crypto, a notification signed over its content passes the check |
| Controller.GetSignVeryfy | controllers/main.py:37-44 | the imperative check on a copy of the post computes `Controller.SignatureCheck` |
| Controller.ReturnUrl | controllers/main.py:23-29 | a non-empty post `return_url`, else the `return_url` of the `custom` JSON object, else '/my/orders'; decoding errors raise |
| Controller.PostReturnUrlWins | controllers/main.py:25-26 | a non-empty post `return_url` decides alone, whatever `custom` holds |
| Controller.GetReturnUrl | controllers/main.py:23-29 | the popping implementation computes `Controller.ReturnUrl` |
| Controller.Endpoint | controllers/main.py:60-63 | the https confirmation endpoint exactly when transport is 'https', the http one exactly otherwise |
| Controller.ConfirmationUrl | controllers/main.py:60-64 | built iff partner and notify_id are strings (TypeError otherwise); starts with the https endpoint iff transport is 'https', else with the http one |
| Controller.ConfirmationQuery | controllers/main.py:64 | when neither partner nor notify_id contains '&', after the endpoint come exactly two parameters, `partner=<partner>` and `notify_id=<id>` |
| Controller.NotifyIdAddsParameter | controllers/main.py:64 | notify_id is not escaped: an '&' inside it splits off a third parameter after `partner=` and `notify_id=` |
| Controller.Confirmation | controllers/main.py:56-68 | the text fetched from the confirmation URL, or TypeError |
| Controller.GetResponse | controllers/main.py:56-68 | the `+=` implementation computes `Controller.Confirmation` |
| Controller.ReturnCheck | controllers/main.py:75-79 | an empty post is refused (False) without any check; otherwise the verdict is exactly the signature check's, its KeyError, AttributeError or Base64Error included |
| Controller.NotifyCheck | controllers/main.py:91-102 | accepted iff the post is non-empty, the signature passes, notify_id is non-empty and the confirmation reads exactly 'true'; raises exactly when the signature check raises (its error propagates), notify_id is missing (KeyError), or the confirmation URL cannot be built (TypeError); every other refusal is False |
| Controller.EmptyNotifyIdRejected | controllers/main.py:96-98 | an empty notify_id leaves the reply at 'false', so it is never accepted |
| Controller.NotifyCheckAsWritten | controllers/main.py:96-102 | comparing the fetched bytes with the str 'true' accepts no notification |
| Controller.ConfirmedNotificationAccepted | controllers/main.py:95-104 | a signed notification with a non-empty notify_id that Alipay confirms with 'true' is accepted |
| Controller.ConfirmedNotificationRefusedAsWritten | controllers/main.py:65-66 | the same confirmed notification is refused when the reply is kept as bytes |
| Controller.Handled | controllers/main.py:102-106 | transactions change only on acceptance; on acceptance they become `Payment.Feedback`'s result, or form_feedback's ValidationError propagates with the table unchanged; accepted iff the check accepts and form_feedback finds the transaction; the check's own errors propagate |
| Controller.ApplyVerdict | controllers/main.py:102-106 | form_feedback runs on the store exactly as `Controller.Handled` states |
| Controller.VerifyData | controllers/main.py:75-84 | the return path: empty post refused before any check, form_feedback only on a valid signature |
| Controller.CheckNotification | controllers/main.py:91-102 | the imperative checks with `responseTxt` compute `Controller.NotifyCheck` |
| Controller.VerifyNotifyData | controllers/main.py:91-106 | the notify path: form_feedback only when `Controller.NotifyCheck` accepts |
| Controller.AlipayNotify | controllers/main.py:108-115 | answers 'success' exactly when accepted and 'fail' exactly when refused |
| Controller.AlipayReturn | controllers/main.py:117-125 | the return URL is chosen first; redirect there on acceptance, the failure page on refusal |

## Left out

- RSA, SHA-256, PKCS#1 v1.5 and base64 are parameters: the `Crypto` record's functions. `RSA.importKey` is the identity on the key text, and its errors are not modelled.
- Func.SetSignVerifies, Controller.SignedNotificationPasses, Controller.ConfirmedNotificationAccepted: each holds only for crypto meeting `Func.Sound`. That predicate states the round trips that working RSA and base64 provide.
- `datetime.now()` is a parameter: the formatted timestamp of `_base_params`, and `fields.datetime.now()` in `_alipay_form_validate`.
- Func.BaseParams: requires that `kw` holds no `app_id`, `method` or `private_key`. Python raises TypeError at the call for those, before the body runs.
- The HTTP round trip of `getResponse` is a parameter returning the response text. The corrected routes use it. The as-written model keeps the bytes; see Findings.
- Controller.ConfirmationQuery: states the two-parameter query only for a partner and notify_id without '&'. notify_id is concatenated unescaped (`quote_plus` is imported at controllers/main.py:7 and never used); Controller.NotifyIdAddsParameter shows the extra parameter an '&' produces.
- `json.loads` is a parameter. Its choice among duplicate keys is not modelled.
- Json.Text: a nested dict is rendered as its JSON text, not as Python's repr. The two differ in quotes and in `None`.
- Values are strings, integers, None and nested dicts. Lists, floats and booleans are not modelled.
- Payment.GenerateValues: `func.buildRequestMysign` is called at models/payment.py:97 but is not defined in models/func.py. It is modelled as an opaque signer parameter. The `params` half of the tuple it returns is unused by the source and ignored here.
- Reading `private_key.pem` is a parameter (the key text).
- `urlparse.urljoin` and the `web.base.url` lookup in `ir.config_parameter` are parameters.
- models/payment.py imports the Python 2 `urlparse` module while controllers/main.py uses Python 3's `urllib`. The model does not take a side, except for the bytes reply in Findings.
- `alipay_compute_fees` is not modelled: it is floating-point arithmetic.
- `_alipay_form_get_invalid_parameters` always returns an empty list. `Payment.Feedback` therefore applies no parameter check.
- Payment.Feedback: the host's `form_feedback` is modelled as finding the transaction and then validating it. Its other bookkeeping is not part of this model.
- The acquirer `search` in the controller is the `Acquirer` value passed in.
- The ORM is a sequence of transaction records with their field dicts.
- Logging, `pprint`, `redirect`, the `@http.route` decorators and `__manifest__.py` are not modelled. `redirect` is the `Redirect` response.
- Python dict order is insertion order, and the model keeps it. Only the canonical string and the signature properties are independent of it. These properties do depend on it: Func.BaseParams (`sign` is the last entry), Payment.DisplayCollapse and Payment.ValidateBaseEntries (a repeated key keeps its first position), Func.ComplexKeys (keys in dict order), and PyData.UpdateFresh and PyData.Put (new keys are appended).
- Concurrency and per-reference locking are not modelled: the source has neither.

## Findings

| source | as written | input that shows it | evidently intended | confidence | as-written member | corrected member |
|---|---|---|---|---|---|---|
| controllers/main.py:96-102 | `getResponse` returns `urlopen(...).read()`, which is bytes under Python 3. `_verify_data` compares it with the str `'true'`. Bytes never equal a str, so the notify route never accepts a notification. | A notification correctly signed with RSA2 and a non-empty `notify_id`, which Alipay confirms with the body `true` (bytes 0x74 0x72 0x75 0x65). | Decode the body to text before comparing, so a confirmed notification is accepted. | not executed | Controller.NotifyCheckAsWritten, Controller.ConfirmedNotificationRefusedAsWritten | Controller.NotifyCheck, Controller.ConfirmedNotificationAccepted |

=== FILE: controller.dfy ===
/** The notification endpoints of controllers/main.py: the RSA2 signature
    check of a posted notification, the confirmation query sent back to
    Alipay, the choice of the page the buyer returns to, and the two routes
    that apply form_feedback only to a notification they accept. */
module Controller {
  import opened Wrappers
  import opened PyData
  import Func
  import Routes
  import opened Payment

  /** The string the notification's signature is checked against: getSignVeryfy
      pops `sign` from its copy of the post and func.verify then drops
      `sign_type`. For a post that carries neither reserved key this is the
      very string sign_data would sign for it. */
  function SignedContent(post: Items): (r: string)
    requires UniqueKeys(post)
    ensures Lookup(post, "sign").None? && Lookup(post, "sign_type").None? ==> r == Func.SignString(post)
  {
    RemoveUnique(post, "sign");
    // Both branches compute the same string; the first only brings in the
    // lemmas the contract needs.
    if Lookup(post, "sign").None? && Lookup(post, "sign_type").None? then
      Func.RemoveAbsent(post, "sign");
      Func.SignAndVerifyAgree(post);
      Func.VerifyString(Remove(post, "sign"))
    else
      Func.VerifyString(Remove(post, "sign"))
  }

  /** getSignVeryfy: reads `post['sign_type']`, pops `sign`, and checks the
      signature only for the RSA2 scheme; every other scheme is refused. */
  function SignatureCheck(c: Func.Crypto, publicKey: string, post: Items): (r: Result<bool, Error>)
    requires UniqueKeys(post)
    ensures r == Failure(KeyError("sign_type")) <==> Lookup(post, "sign_type").None?
    ensures Lookup(post, "sign_type").Some? && Lookup(post, "sign_type").value != Str("RSA2") ==> r == Success(false)
    ensures r == Success(true) ==>
              Lookup(post, "sign_type") == Some(Str("RSA2")) &&
              Func.RawVerify(c, SignedContent(post), GetOr(post, "sign", Null), publicKey) == Success(true)
    ensures Lookup(post, "sign_type") == Some(Str("RSA2")) ==>
              r == Func.RawVerify(c, SignedContent(post), GetOr(post, "sign", Null), publicKey)
  {
    match Lookup(post, "sign_type")
    case None => Failure(KeyError("sign_type"))
    case Some(signType) =>
      if signType == Str("RSA2") then
        RemoveUnique(post, "sign");
        Func.RawVerify(c, Func.VerifyString(Remove(post, "sign")), GetOr(post, "sign", Null), publicKey)
      else Success(false)
  }

  /** Neither `sign` nor `sign_type` is part of what is checked: two
      notifications that agree on every other entry have the same signed
      content, whatever signature they carry. */
  lemma SignedContentIgnoresSignature(a: Items, b: Items)
    requires UniqueKeys(a) && UniqueKeys(b)
    requires forall p: (string, Value) :: p.0 != "sign" && p.0 != "sign_type" ==> (p in a <==> p in b)
    ensures SignedContent(a) == SignedContent(b)
  {
    RemoveUnique(a, "sign");
    RemoveUnique(b, "sign");
    Func.VerifyStringIgnoresSignType(Remove(a, "sign"), Remove(b, "sign"));
  }

  /** A notification signed by Alipay's private key over its content passes
      the check against the matching public key. */
  lemma {:induction false} SignedNotificationPasses(c: Func.Crypto, privateKey: string, post: Items)
    requires Func.Sound(c) && UniqueKeys(post)
    requires Lookup(post, "sign_type") == Some(Str("RSA2"))
    requires Lookup(post, "sign") == Some(Str(Func.SetSign(c, SignedContent(post), privateKey)))
    ensures SignatureCheck(c, c.publicKeyOf(privateKey), post) == Success(true)
  {
    Func.SetSignVerifies(c, SignedContent(post), privateKey);
  }

  /** getSignVeryfy on its own copy of the posted dict (`**post`). */
  method GetSignVeryfy(c: Func.Crypto, publicKey: string, post: Items) returns (r: Result<bool, Error>)
    requires UniqueKeys(post)
    ensures r == SignatureCheck(c, publicKey, post)
  {
    var d := new Dict(post);
    var signType := Lookup(post, "sign_type");
    if signType.None? {
      return Failure(KeyError("sign_type"));
    }
    var sign := d.Pop("sign", Null);
    if signType.value == Str("RSA2") {
      r := Func.Verify(c, d, sign, publicKey);
    } else {
      r := Success(false);
    }
  }

  /** _get_return_url: a non-empty `return_url` of the post, else the
      `return_url` of the JSON object in `custom`, else '/my/orders'.
      `loads` is json.loads on a text, None when the text is not JSON. */
  function ReturnUrl(post: Items, loads: string -> Option<Value>): (r: Result<Value, Error>)
    ensures Truthy(GetOr(post, "return_url", Str(""))) ==> r == Success(GetOr(post, "return_url", Str("")))
    ensures !Truthy(GetOr(post, "return_url", Str(""))) && !Truthy(GetOr(post, "custom", Null)) ==>
              r == Success(Str("/my/orders"))
    ensures !Truthy(GetOr(post, "return_url", Str(""))) && Truthy(GetOr(post, "custom", Null)) ==>
              var custom := GetOr(post, "custom", Null);
              && (!custom.Str? ==> r == Failure(TypeError))
              && (custom.Str? && loads(custom.s).None? ==> r == Failure(JsonDecodeError))
              && (custom.Str? && loads(custom.s).Some? && !loads(custom.s).value.Obj? ==> r == Failure(AttributeError))
              && (custom.Str? && loads(custom.s).Some? && loads(custom.s).value.Obj? ==>
                    r == Success(GetOr(loads(custom.s).value.fields, "return_url", Str("/my/orders"))))
  {
    var returnUrl := GetOr(post, "return_url", Str(""));
    if Truthy(returnUrl) then Success(returnUrl)
    else
      var custom := GetOr(post, "custom", Null);
      if !Truthy(custom) then Success(Str("/my/orders"))
      else if !custom.Str? then Failure(TypeError)
      else
        match loads(custom.s)
        case None => Failure(JsonDecodeError)
        case Some(parsed) =>
          if parsed.Obj? then Success(GetOr(parsed.fields, "return_url", Str("/my/orders")))
          else Failure(AttributeError)
  }

  /** A non-empty `return_url` in the post wins, whatever `custom` holds. */
  lemma PostReturnUrlWins(post: Items, post': Items, loads: string -> Option<Value>, loads': string -> Option<Value>)
    requires Lookup(post, "return_url") == Lookup(post', "return_url")
    requires Truthy(GetOr(post, "return_url", Str("")))
    ensures ReturnUrl(post, loads) == ReturnUrl(post', loads')
  {
  }

  /** _get_return_url on its own copy of the posted dict, popping
      `return_url` and then `custom`. */
  method GetReturnUrl(post: Items, loads: string -> Option<Value>) returns (r: Result<Value, Error>)
    requires UniqueKeys(post)
    ensures r == ReturnUrl(post, loads)
  {
    var d := new Dict(post);
    var returnUrl := d.Pop("return_url", Str(""));
    if !Truthy(returnUrl) {
      RemoveLookup(post, "return_url", "custom");
      var raw := d.Pop("custom", Null);
      var custom: Option<Value>;
      if Truthy(raw) {
        if !raw.Str? {
          return Failure(TypeError);
        }
        custom := loads(raw.s);
      } else {
        custom := Some(Obj([]));  // json.loads('{}')
      }
      if custom.None? {
        return Failure(JsonDecodeError);
      }
      if !custom.value.Obj? {
        return Failure(AttributeError);
      }
      returnUrl := GetOr(custom.value.fields, "return_url", Str("/my/orders"));
    }
    r := Success(returnUrl);
  }

  /** The confirmation endpoint for an acquirer's transport. */
  function Endpoint(transport: Value): (r: string)
    ensures r == Routes.HttpsVerifyUrl <==> transport == Str("https")
    ensures r == Routes.HttpVerifyUrl <==> transport != Str("https")
  {
    if transport == Str("https") then Routes.HttpsVerifyUrl else Routes.HttpVerifyUrl
  }

  /** The URL getResponse queries: the https endpoint when the transport is
      'https' and the http one otherwise, then `partner=<partner>` and
      `notify_id=<id>`. A partner or id that is not a string makes `+` raise. */
  function ConfirmationUrl(transport: Value, partner: Value, notifyId: Value): (r: Result<string, Error>)
    ensures r.Success? <==> partner.Str? && notifyId.Str?
    ensures r.Failure? ==> r.error == TypeError
    ensures r.Success? && transport == Str("https") ==> Routes.HttpsVerifyUrl <= r.value
    ensures r.Success? && transport != Str("https") ==> Routes.HttpVerifyUrl <= r.value
  {
    if partner.Str? && notifyId.Str? then
      Success(Endpoint(transport) + ("partner=" + partner.s + "&notify_id=" + notifyId.s))
    else Failure(TypeError)
  }

  /** `a + "&" + b` splits back into `a` and `b` when neither holds an '&'. */
  lemma SplitPair(a: string, b: string)
    requires '&' !in a && '&' !in b
    ensures Func.SplitAmp(a + "&" + b) == [a, b]
  {
    var parts := [a, b];
    assert parts[1..] == [b];
    assert Func.JoinAmp(parts) == a + "&" + b;
    Func.SplitJoin(parts);
  }

  /** After the endpoint, the confirmation query carries exactly two
      parameters, the partner and the id Alipay sent, when neither holds
      an '&'. */
  lemma ConfirmationQuery(transport: Value, partner: string, notifyId: string)
    requires '&' !in partner && '&' !in notifyId
    ensures var url := ConfirmationUrl(transport, Str(partner), Str(notifyId)).value;
            && Endpoint(transport) <= url
            && Func.SplitAmp(url[|Endpoint(transport)|..]) == ["partner=" + partner, "notify_id=" + notifyId]
  {
    var base, p, n := Endpoint(transport), "partner=" + partner, "notify_id=" + notifyId;
    var query := p + "&notify_id=" + notifyId;
    assert "&notify_id=" == "&" + "notify_id=";
    assert query == p + "&" + n;
    assert (base + query)[|base|..] == query;
    SplitPair(p, n);
  }

  /** notify_id goes into the query unescaped: one '&' inside it adds a
      third parameter after the two the query is meant to carry. */
  lemma NotifyIdAddsParameter(transport: Value, partner: string, n1: string, n2: string)
    requires '&' !in partner && '&' !in n1 && '&' !in n2
    ensures var url := ConfirmationUrl(transport, Str(partner), Str(n1 + "&" + n2)).value;
            && Endpoint(transport) <= url
            && Func.SplitAmp(url[|Endpoint(transport)|..]) == ["partner=" + partner, "notify_id=" + n1, n2]
  {
    var base, p, n := Endpoint(transport), "partner=" + partner, "notify_id=" + n1;
    var query := p + "&notify_id=" + (n1 + "&" + n2);
    assert "&notify_id=" == "&" + "notify_id=";
    assert query == p + "&" + n + "&" + n2;
    assert (base + query)[|base|..] == query;
    assert '&' !in n by {
      assert '&' !in "notify_id=";
    }
    assert '&' !in p by {
      assert '&' !in "partner=";
    }
    SplitTriple(p, n, n2);
  }

  /** `a + "&" + b + "&" + c` splits back into its three parts when none holds an '&'. */
  lemma SplitTriple(a: string, b: string, c: string)
    requires '&' !in a && '&' !in b && '&' !in c
    ensures Func.SplitAmp(a + "&" + b + "&" + c) == [a, b, c]
  {
    var parts := [a, b, c];
    assert parts[1..] == [b, c] && parts[1..][1..] == [c];
    assert Func.JoinAmp([b, c]) == b + "&" + c;
    assert Func.JoinAmp(parts) == a + "&" + (b + "&" + c);
    assert a + "&" + (b + "&" + c) == a + "&" + b + "&" + c;
    Func.SplitJoin(parts);
  }

  /** The confirmation text getResponse returns: the body `fetch` reads
      from the confirmation URL. */
  function Confirmation(acquirer: Acquirer, notifyId: Value, fetch: string -> string): (r: Result<string, Error>)
    ensures ConfirmationUrl(acquirer.transport, acquirer.partner, notifyId).Failure? ==> r == Failure(TypeError)
    ensures ConfirmationUrl(acquirer.transport, acquirer.partner, notifyId).Success? ==>
              r == Success(fetch(ConfirmationUrl(acquirer.transport, acquirer.partner, notifyId).value))
  {
    var url :- ConfirmationUrl(acquirer.transport, acquirer.partner, notifyId);
    Success(fetch(url))
  }

  /** getResponse: builds the confirmation URL with `+=` and fetches it.
      `fetch` is the HTTP round trip, returning the response text. */
  method GetResponse(acquirer: Acquirer, notifyId: Value, fetch: string -> string) returns (r: Result<string, Error>)
    ensures r == Confirmation(acquirer, notifyId, fetch)
  {
    var veryfyUrl: string;
    if acquirer.transport == Str("https") {
      veryfyUrl := Routes.HttpsVerifyUrl;
    } else {
      veryfyUrl := Routes.HttpVerifyUrl;
    }
    if !acquirer.partner.Str? || !notifyId.Str? {
      return Failure(TypeError);
    }
    veryfyUrl := veryfyUrl + ("partner=" + acquirer.partner.s + "&notify_id=" + notifyId.s);
    r := Success(fetch(veryfyUrl));
  }

  /** verify_data's decision on the return path: an empty post is refused
      before any check; otherwise the signature decides. */
  function ReturnCheck(c: Func.Crypto, acquirer: Acquirer, post: Items): (r: Result<bool, Error>)
    requires UniqueKeys(post)
    ensures post == [] ==> r == Success(false)
    ensures r == Success(true) <==> post != [] && SignatureCheck(c, acquirer.publicKey, post) == Success(true)
    ensures post != [] ==> r == SignatureCheck(c, acquirer.publicKey, post)
  {
    if post == [] then Success(false) else SignatureCheck(c, acquirer.publicKey, post)
  }

  /** _verify_data's decision on the notify path: an empty post is refused;
      otherwise the signature is checked, and Alipay is asked to confirm the
      notification when it has a non-empty `notify_id`. Both the signature
      and a confirmation reading exactly 'true' are needed. */
  function NotifyCheck(c: Func.Crypto, acquirer: Acquirer, post: Items, fetch: string -> string): (r: Result<bool, Error>)
    requires UniqueKeys(post)
    ensures post == [] ==> r == Success(false)
    ensures r == Success(true) <==>
              && post != []
              && SignatureCheck(c, acquirer.publicKey, post) == Success(true)
              && Truthy(GetOr(post, "notify_id", Null))
              && Confirmation(acquirer, GetOr(post, "notify_id", Null), fetch) == Success("true")
    ensures post != [] && SignatureCheck(c, acquirer.publicKey, post).Success? && Lookup(post, "notify_id").None? ==>
              r == Failure(KeyError("notify_id"))
    ensures post != [] && SignatureCheck(c, acquirer.publicKey, post).Failure? ==> r == SignatureCheck(c, acquirer.publicKey, post)
    ensures r.Failure? <==>
              && post != []
              && (|| SignatureCheck(c, acquirer.publicKey, post).Failure?
                  || Lookup(post, "notify_id").None?
                  || (Truthy(Lookup(post, "notify_id").value) &&
                      Confirmation(acquirer, Lookup(post, "notify_id").value, fetch).Failure?))
  {
    if post == [] then Success(false)
    else
      var isSign :- SignatureCheck(c, acquirer.publicKey, post);
      match Lookup(post, "notify_id")
      case None => Failure(KeyError("notify_id"))
      case Some(notifyId) =>
        var responseTxt :- if Truthy(notifyId) then Confirmation(acquirer, notifyId, fetch) else Success("false");
        Success(responseTxt == "true" && isSign)
  }

  /** An empty `notify_id` leaves the confirmation at 'false': such a
      notification is never accepted, however it is signed. */
  lemma EmptyNotifyIdRejected(c: Func.Crypto, acquirer: Acquirer, post: Items, fetch: string -> string)
    requires UniqueKeys(post)
    requires Lookup(post, "notify_id").Some? && !Truthy(Lookup(post, "notify_id").value)
    ensures NotifyCheck(c, acquirer, post, fetch) != Success(true)
  {
  }

  /** What `responseTxt` holds in _verify_data as written: the str 'false',
      or the bytes object that `urlopen(...).read()` returns under Python 3. */
  datatype Reply = Text(text: string) | Bytes(bytes: seq<bv8>)

  /** Python 3's `reply == s` for a str `s`: bytes never equal a str. */
  predicate RepliesText(reply: Reply, s: string) {
    reply.Text? && reply.text == s
  }

  /** _verify_data's checks as written, where getResponse hands back the raw
      bytes of the confirmation body (`fetchBytes`) and they are compared
      with the str 'true': no notification is ever accepted. */
  function NotifyCheckAsWritten(c: Func.Crypto, acquirer: Acquirer, post: Items, fetchBytes: string -> seq<bv8>)
    : (r: Result<bool, Error>)
    requires UniqueKeys(post)
    ensures r != Success(true)
  {
    if post == [] then Success(false)
    else
      var isSign :- SignatureCheck(c, acquirer.publicKey, post);
      match Lookup(post, "notify_id")
      case None => Failure(KeyError("notify_id"))
      case Some(notifyId) =>
        var responseTxt :- if Truthy(notifyId) then
                             var url :- ConfirmationUrl(acquirer.transport, acquirer.partner, notifyId);
                             Success(Bytes(fetchBytes(url)))
                           else Success(Text("false"));
        Success(RepliesText(responseTxt, "true") && isSign)
  }

  /** A correctly signed notification with a non-empty `notify_id`, which
      Alipay confirms with the body `true`, is accepted once that body is
      read as text. */
  lemma ConfirmedNotificationAccepted(c: Func.Crypto, privateKey: string, acquirer: Acquirer, post: Items,
                                      fetch: string -> string)
    requires Func.Sound(c) && UniqueKeys(post)
    requires acquirer.publicKey == c.publicKeyOf(privateKey) && acquirer.partner.Str?
    requires Lookup(post, "sign_type") == Some(Str("RSA2"))
    requires Lookup(post, "sign") == Some(Str(Func.SetSign(c, SignedContent(post), privateKey)))
    requires Lookup(post, "notify_id").Some? && Lookup(post, "notify_id").value.Str?
    requires Lookup(post, "notify_id").value.s != ""
    requires forall url :: fetch(url) == "true"
    ensures NotifyCheck(c, acquirer, post, fetch) == Success(true)
  {
    SignedNotificationPasses(c, privateKey, post);
  }

  /** The same notification is refused by the code as written, which
      compares the body's bytes (here `true` in ASCII) with the str 'true':
      whatever the signature, a check that raises nothing answers False. */
  lemma ConfirmedNotificationRefusedAsWritten(c: Func.Crypto, acquirer: Acquirer, post: Items,
                                              fetchBytes: string -> seq<bv8>)
    requires UniqueKeys(post) && acquirer.partner.Str?
    requires SignatureCheck(c, acquirer.publicKey, post).Success?
    requires Lookup(post, "notify_id").Some? && Lookup(post, "notify_id").value.Str?
    requires forall url :: fetchBytes(url) == [0x74, 0x72, 0x75, 0x65]
    ensures NotifyCheckAsWritten(c, acquirer, post, fetchBytes) == Success(false)
  {
  }

  /** What a route leaves behind once its check is decided: form_feedback
      runs, and may change the transactions, only on acceptance; its
      ValidationError propagates. */
  function Handled(check: Result<bool, Error>, records: seq<Tx>, post: Items, now: Value): (r: (Result<bool, Error>, seq<Tx>))
    ensures check != Success(true) ==> r.1 == records
    ensures check.Failure? ==> r.0 == check
    ensures check == Success(false) ==> r.0 == Success(false)
    ensures r.0 == Success(true) <==> check == Success(true) && TxFromData(records, post).Success?
    ensures check == Success(true) && Feedback(records, post, now).Success? ==> r.1 == Feedback(records, post, now).value
    ensures check == Success(true) && Feedback(records, post, now).Failure? ==>
              r == (Failure(Feedback(records, post, now).error), records)
  {
    match check
    case Failure(e) => (Failure(e), records)
    case Success(accepted) =>
      if !accepted then (Success(false), records)
      else
        match Feedback(records, post, now)
        case Success(after) => (Success(true), after)
        case Failure(e) => (Failure(e), records)
  }

  /** form_feedback on the posted notification once a route has accepted
      it; a refused notification, or a failed check, leaves the table as it was. */
  method ApplyVerdict(check: Result<bool, Error>, post: Items, store: TransactionStore, now: Value)
    returns (r: Result<bool, Error>)
    requires store.Valid()
    modifies store
    ensures store.Valid()
    ensures (r, store.records) == Handled(check, old(store.records), post, now)
  {
    if check.Failure? {
      return Failure(check.error);
    }
    if check.value {
      var fed := store.FormFeedback(post, now);
      if fed.Failure? {
        return Failure(fed.error);
      }
      r := Success(true);
    } else {
      r := Success(false);
    }
  }

  /** verify_data: form_feedback on the posted notification when its
      signature is valid. */
  method VerifyData(c: Func.Crypto, acquirer: Acquirer, post: Items, store: TransactionStore, now: Value)
    returns (r: Result<bool, Error>)
    requires UniqueKeys(post) && store.Valid()
    modifies store
    ensures store.Valid()
    ensures (r, store.records) == Handled(ReturnCheck(c, acquirer, post), old(store.records), post, now)
  {
    var check := Success(false);
    if post != [] {
      check := GetSignVeryfy(c, acquirer.publicKey, post);
    }
    r := ApplyVerdict(check, post, store, now);
  }

  /** The checks of _verify_data, before anything is applied. */
  method CheckNotification(c: Func.Crypto, acquirer: Acquirer, post: Items, fetch: string -> string)
    returns (r: Result<bool, Error>)
    requires UniqueKeys(post)
    ensures r == NotifyCheck(c, acquirer, post, fetch)
  {
    if post == [] {
      return Success(false);
    }
    var isSign := GetSignVeryfy(c, acquirer.publicKey, post);
    if isSign.Failure? {
      return Failure(isSign.error);
    }
    var responseTxt := "false";
    var notifyId := Lookup(post, "notify_id");
    if notifyId.None? {
      return Failure(KeyError("notify_id"));
    }
    if Truthy(notifyId.value) {
      var response := GetResponse(acquirer, notifyId.value, fetch);
      if response.Failure? {
        return Failure(response.error);
      }
      responseTxt := response.value;
    }
    r := Success(responseTxt == "true" && isSign.value);
  }

  /** _verify_data: form_feedback on the posted notification when its
      signature is valid and Alipay confirms it. */
  method VerifyNotifyData(c: Func.Crypto, acquirer: Acquirer, post: Items, fetch: string -> string,
                          store: TransactionStore, now: Value)
    returns (r: Result<bool, Error>)
    requires UniqueKeys(post) && store.Valid()
    modifies store
    ensures store.Valid()
    ensures (r, store.records) == Handled(NotifyCheck(c, acquirer, post, fetch), old(store.records), post, now)
  {
    var check := CheckNotification(c, acquirer, post, fetch);
    r := ApplyVerdict(check, post, store, now);
  }

  /** alipay_notify: answers 'success' exactly when _verify_data accepts
      the notification and 'fail' when it refuses it. */
  method AlipayNotify(c: Func.Crypto, acquirer: Acquirer, post: Items, fetch: string -> string,
                      store: TransactionStore, now: Value)
    returns (r: Result<string, Error>)
    requires UniqueKeys(post) && store.Valid()
    modifies store
    ensures store.Valid()
    ensures var (verdict, after) := Handled(NotifyCheck(c, acquirer, post, fetch), old(store.records), post, now);
            && store.records == after
            && (r == Success("success") <==> verdict == Success(true))
            && (r == Success("fail") <==> verdict == Success(false))
            && (r.Failure? <==> verdict.Failure?)
  {
    var verified := VerifyNotifyData(c, acquirer, post, fetch, store, now);
    if verified.Failure? {
      return Failure(verified.error);
    }
    if verified.value {
      r := Success("success");
    } else {
      r := Success("fail");
    }
  }

  /** What the return route sends to the browser. */
  datatype Response = Redirect(url: Value) | Body(text: string)

  /** The page shown when verification fails: "验证失败" ("verification failed"). */
  const VerificationFailed := "\U{9A8C}\U{8BC1}\U{5931}\U{8D25}"

  /** alipay_return: picks the return URL first, then redirects there when
      verify_data accepts, and shows the failure text when it refuses. */
  method AlipayReturn(c: Func.Crypto, acquirer: Acquirer, post: Items, loads: string -> Option<Value>,
                      store: TransactionStore, now: Value)
    returns (r: Result<Response, Error>)
    requires UniqueKeys(post) && store.Valid()
    modifies store
    ensures store.Valid()
    ensures ReturnUrl(post, loads).Failure? ==> r == Failure(ReturnUrl(post, loads).error) && store.records == old(store.records)
    ensures ReturnUrl(post, loads).Success? ==>
              var (verdict, after) := Handled(ReturnCheck(c, acquirer, post), old(store.records), post, now);
              && store.records == after
              && (verdict == Success(true) ==> r == Success(Redirect(ReturnUrl(post, loads).value)))
              && (verdict == Success(false) ==> r == Success(Body(VerificationFailed)))
              && (verdict.Failure? ==> r == Failure(verdict.error))
  {
    var returnUrl := GetReturnUrl(post, loads);
    if returnUrl.Failure? {
      return Failure(returnUrl.error);
    }
    var verified := VerifyData(c, acquirer, post, store, now);
    if verified.Failure? {
      return Failure(verified.error);
    }
    if verified.value {
      r := Success(Redirect(returnUrl.value));
    } else {
      r := Success(Body(VerificationFailed));
    }
  }
}

=== FILE: func.dfy ===
/** The canonicaliser and signing helpers of models/func.py: the canonical
    `k=v&k=v` string over a dict's entries in key order, RSA2 signing of it,
    its verification, and the envelope of a modern (RSA2) API request. */
module Func {
  import opened Wrappers
  import opened PyData
  import Json
  import opened KeyOrder

  /** The cryptographic collaborators, opaque to this model. Keys are the PEM
      texts that `RSA.importKey` reads. */
  datatype Crypto = Crypto(
    pkcs1Sign: (string, string) -> seq<bv8>,         // PKCS#1 v1.5 signature of SHA-256(UTF-8 content), private key
    pkcs1Verify: (string, seq<bv8>, string) -> bool, // its check against a public key
    encodeBytes: seq<bv8> -> string,                 // base64.encodebytes: base64 broken into lines
    decodeBytes: string -> Option<seq<bv8>>,         // base64.decodebytes; None when it raises
    publicKeyOf: string -> string)                   // the public key matching a private key

  /** What working RSA and base64 implementations guarantee: decoding undoes
      encoding once the line breaks are gone, and a signature made with a
      private key verifies with the matching public key. */
  ghost predicate Sound(c: Crypto) {
    && (forall b :: c.decodeBytes(StripNewlines(c.encodeBytes(b))) == Some(b))
    && (forall m, k :: c.pkcs1Verify(m, c.pkcs1Sign(m, k), c.publicKeyOf(k)))
  }

  /** `s.replace("\n", "")` */
  function StripNewlines(s: string): (r: string)
    ensures '\n' !in r
    ensures forall ch :: ch in r ==> ch in s
    ensures '\n' !in s ==> r == s
  {
    if s == [] then []
    else (if s[0] == '\n' then [] else [s[0]]) + StripNewlines(s[1..])
  }

  /** `replace` works piece by piece: together with the contract above, this
      says every character other than a newline is kept, in order. */
  lemma {:induction false} StripNewlinesConcat(a: string, b: string)
    ensures StripNewlines(a + b) == StripNewlines(a) + StripNewlines(b)
  {
    if a != [] {
      assert (a + b)[0] == a[0];
      assert (a + b)[1..] == a[1..] + b;
      StripNewlinesConcat(a[1..], b);
    } else {
      assert a + b == b;
    }
  }

  /** The value ordered_data leaves under a key: a dict becomes its compact
      JSON text, anything else stays. */
  function Compact(v: Value): Value {
    if v.Obj? then Str(Json.Dumps(v, Json.Compact)) else v
  }

  /** The dict after ordered_data has rewritten it: same keys in the same
      order, every dict value replaced by its compact JSON, no dict left. */
  function Compacted(items: Items): (r: Items)
    ensures |r| == |items|
    ensures forall i :: 0 <= i < |items| ==> r[i].0 == items[i].0 && !r[i].1.Obj?
    ensures forall i :: 0 <= i < |items| && items[i].1.Obj? ==>
              r[i].1 == Str(Json.Dumps(items[i].1, Json.Compact))
    ensures forall i :: 0 <= i < |items| && !items[i].1.Obj? ==> r[i] == items[i]
  {
    seq(|items|, i requires 0 <= i < |items| => (items[i].0, Compact(items[i].1)))
  }

  lemma CompactedUnique(items: Items)
    requires UniqueKeys(items)
    ensures UniqueKeys(Compacted(items))
  {
  }

  /** Rewriting twice changes nothing more: compacted values are strings. */
  lemma CompactedIdempotent(items: Items)
    ensures Compacted(Compacted(items)) == Compacted(items)
  {
  }

  /** Compacting maps entries to entries, so dicts with the same entries
      compact to dicts with the same entries. */
  lemma CompactedSameEntries(a: Items, b: Items)
    requires forall p :: p in a <==> p in b
    ensures forall p :: p in Compacted(a) <==> p in Compacted(b)
  {
    var ca, cb := Compacted(a), Compacted(b);
    forall p | p in ca ensures p in cb {
      var i :| 0 <= i < |ca| && ca[i] == p;
      assert a[i] in b;
      var j :| 0 <= j < |b| && b[j] == a[i];
      assert cb[j] == p;
    }
    forall p | p in cb ensures p in ca {
      var j :| 0 <= j < |cb| && cb[j] == p;
      assert b[j] in a;
      var i :| 0 <= i < |a| && a[i] == b[j];
      assert ca[i] == p;
    }
  }

  /** What ordered_data returns: one pair per key of the dict and no others,
      the key's value compacted, in strictly ascending key order. */
  function SortedEntries(items: Items): (r: Items)
    requires UniqueKeys(items)
    ensures |r| == |items|
    ensures StrictlySorted(r)
    ensures forall k, v :: (k, v) in r <==> Lookup(items, k).Some? && v == Compact(Lookup(items, k).value)
  {
    CompactedUnique(items);
    SortByKeySorted(Compacted(items));
    var r := SortByKey(Compacted(items));
    assert forall p :: p in r <==> p in Compacted(items) by {
      forall p ensures p in r <==> p in Compacted(items) {
        assert p in r <==> p in multiset(r);
        assert p in Compacted(items) <==> p in multiset(Compacted(items));
      }
    }
    forall k, v ensures (k, v) in r <==> Lookup(items, k).Some? && v == Compact(Lookup(items, k).value) {
      if (k, v) in Compacted(items) {
        var i :| 0 <= i < |items| && Compacted(items)[i] == (k, v);
        LookupFinds(items, k, items[i].1);
      }
      if Lookup(items, k).Some? {
        var i :| 0 <= i < |items| && items[i] == (k, Lookup(items, k).value);
        assert Compacted(items)[i] == (k, Compact(Lookup(items, k).value));
      }
    }
    r
  }

  /** ordered_data's result depends only on the dict's entries, not on the
      order in which they were inserted. */
  lemma {:induction false} SortedEntriesIgnoreInsertionOrder(a: Items, b: Items)
    requires UniqueKeys(a) && UniqueKeys(b)
    requires forall p :: p in a <==> p in b
    ensures SortedEntries(a) == SortedEntries(b)
  {
    CompactedUnique(a);
    CompactedUnique(b);
    CompactedSameEntries(a, b);
    SortIgnoresInsertionOrder(Compacted(a), Compacted(b));
  }

  /** `"{0}={1}".format(k, v)` */
  function Pair(p: (string, Value)): string {
    p.0 + "=" + Json.Text(p.1)
  }

  /** The pairs formatted one by one. */
  function Formatted(pairs: Items): (r: seq<string>)
    ensures |r| == |pairs| && forall i :: 0 <= i < |pairs| ==> r[i] == Pair(pairs[i])
  {
    seq(|pairs|, i requires 0 <= i < |pairs| => Pair(pairs[i]))
  }

  /** `"&".join(parts)` */
  function JoinAmp(parts: seq<string>): string {
    if parts == [] then ""
    else if |parts| == 1 then parts[0]
    else parts[0] + "&" + JoinAmp(parts[1..])
  }

  /** The canonical string: the formatted pairs joined with '&'. */
  function Join(pairs: Items): string {
    JoinAmp(Formatted(pairs))
  }

  /** `s.split("&")` */
  function SplitAmp(s: string): (r: seq<string>)
    ensures |r| >= 1
  {
    if s == [] then [""]
    else
      var rest := SplitAmp(s[1..]);
      if s[0] == '&' then [""] + rest else [[s[0]] + rest[0]] + rest[1..]
  }

  lemma {:induction false} SplitAfterPlain(a: string, b: string)
    requires '&' !in a
    ensures SplitAmp(a + b) == [a + SplitAmp(b)[0]] + SplitAmp(b)[1..]
  {
    if a != [] {
      var sb := SplitAmp(b);
      assert a[0] in a;
      assert (a + b)[0] == a[0];
      assert (a + b)[1..] == a[1..] + b;
      assert '&' !in a[1..] by { forall ch | ch in a[1..] ensures ch in a { } }
      SplitAfterPlain(a[1..], b);
      var rest := SplitAmp(a[1..] + b);
      assert rest[0] == a[1..] + sb[0] && rest[1..] == sb[1..];
      assert SplitAmp(a + b) == [[a[0]] + rest[0]] + rest[1..];
      assert [a[0]] + (a[1..] + sb[0]) == a + sb[0];
    } else {
      var sb := SplitAmp(b);
      assert a + b == b;
      assert a + sb[0] == sb[0];
      assert sb == [sb[0]] + sb[1..];
    }
  }

  /** A leading '&' splits off an empty first part. */
  lemma SplitLead(t: string)
    ensures SplitAmp("&" + t) == [""] + SplitAmp(t)
  {
    var s := "&" + t;
    assert s[0] == '&' && s[1..] == t;
  }

  /** `"&".join` is undone by `split("&")` when no part holds an '&': the
      canonical string has no leading, trailing or doubled separator. */
  lemma {:induction false} SplitJoin(parts: seq<string>)
    requires forall i :: 0 <= i < |parts| ==> '&' !in parts[i]
    ensures parts != [] ==> SplitAmp(JoinAmp(parts)) == parts
  {
    if |parts| == 1 {
      SplitAfterPlain(parts[0], "");
      assert parts[0] + "" == parts[0];
    } else if |parts| > 1 {
      var head, rest := parts[0], parts[1..];
      var tail := JoinAmp(rest);
      assert forall i :: 0 <= i < |rest| ==> rest[i] == parts[i + 1];
      SplitJoin(rest);
      SplitLead(tail);
      SplitAfterPlain(head, "&" + tail);
      assert JoinAmp(parts) == head + ("&" + tail);
      assert head + "" == head;
      assert parts == [head] + rest;
    }
  }

  /** The string sign_data signs: every entry except `sign`, canonicalised. */
  function SignString(items: Items): string
    requires UniqueKeys(items)
  {
    RemoveUnique(items, "sign");
    Join(SortedEntries(Remove(items, "sign")))
  }

  /** The string verify checks: every entry except `sign_type`, canonicalised. */
  function VerifyString(items: Items): string
    requires UniqueKeys(items)
  {
    RemoveUnique(items, "sign_type");
    Join(SortedEntries(Remove(items, "sign_type")))
  }

  /** A `sign` entry, whatever its value, never changes what sign_data signs:
      dicts that agree on every other entry sign the same string. */
  lemma SignStringIgnoresSign(a: Items, b: Items)
    requires UniqueKeys(a) && UniqueKeys(b)
    requires forall p: (string, Value) :: p.0 != "sign" ==> (p in a <==> p in b)
    ensures SignString(a) == SignString(b)
  {
    RemoveUnique(a, "sign");
    RemoveUnique(b, "sign");
    SortedEntriesIgnoreInsertionOrder(Remove(a, "sign"), Remove(b, "sign"));
  }

  /** `sign_type`, unlike `sign`, is part of the string sign_data signs. */
  lemma SignTypeIsSigned(items: Items)
    requires UniqueKeys(items) && Lookup(items, "sign_type").Some?
    ensures UniqueKeys(Remove(items, "sign")) &&
            ("sign_type", Compact(Lookup(items, "sign_type").value)) in SortedEntries(Remove(items, "sign"))
  {
    RemoveUnique(items, "sign");
    RemoveLookup(items, "sign", "sign_type");
  }

  /** A `sign_type` entry never changes what verify checks. */
  lemma VerifyStringIgnoresSignType(a: Items, b: Items)
    requires UniqueKeys(a) && UniqueKeys(b)
    requires forall p: (string, Value) :: p.0 != "sign_type" ==> (p in a <==> p in b)
    ensures VerifyString(a) == VerifyString(b)
  {
    RemoveUnique(a, "sign_type");
    RemoveUnique(b, "sign_type");
    SortedEntriesIgnoreInsertionOrder(Remove(a, "sign_type"), Remove(b, "sign_type"));
  }

  /** verify does not drop `sign`: a `sign` entry left in the dict is part of
      the checked string, so the caller has to remove it first. */
  lemma VerifyKeepsSign(items: Items)
    requires UniqueKeys(items) && Lookup(items, "sign").Some?
    ensures UniqueKeys(Remove(items, "sign_type")) &&
            ("sign", Compact(Lookup(items, "sign").value)) in SortedEntries(Remove(items, "sign_type"))
  {
    RemoveUnique(items, "sign_type");
    RemoveLookup(items, "sign_type", "sign");
  }

  lemma RemoveAbsent(items: Items, k: string)
    requires Lookup(items, k).None?
    ensures Remove(items, k) == items
  {
    if items != [] {
      RemoveAbsent(items[1..], k);
      assert items == [items[0]] + items[1..];
    }
  }

  /** The string sign_data signs splits on '&' into exactly the formatted
      sorted pairs, provided no pair's text holds an '&'. */
  lemma CanonicalParts(items: Items)
    requires UniqueKeys(items) && UniqueKeys(Remove(items, "sign"))
    requires forall p :: p in SortedEntries(Remove(items, "sign")) ==> '&' !in Pair(p)
    ensures Remove(items, "sign") != [] ==>
              SplitAmp(SignString(items)) == Formatted(SortedEntries(Remove(items, "sign")))
  {
    var parts := Formatted(SortedEntries(Remove(items, "sign")));
    forall i | 0 <= i < |parts|
      ensures '&' !in parts[i]
    {
      assert SortedEntries(Remove(items, "sign"))[i] in SortedEntries(Remove(items, "sign"));
    }
    SplitJoin(parts);
  }

  /** Without `sign` and `sign_type`, sign_data and verify build the same string. */
  lemma SignAndVerifyAgree(items: Items)
    requires UniqueKeys(items)
    requires Lookup(items, "sign").None? && Lookup(items, "sign_type").None?
    ensures SignString(items) == VerifyString(items)
  {
    RemoveAbsent(items, "sign");
    RemoveAbsent(items, "sign_type");
  }

  /** set_sign: the base64 signature of the content, with the encoder's
      line breaks removed, so it never contains a newline. */
  function SetSign(c: Crypto, content: string, privateKey: string): (r: string)
    ensures '\n' !in r
  {
    StripNewlines(c.encodeBytes(c.pkcs1Sign(content, privateKey)))
  }

  /** _verify: decodes the signature and checks it against the content.
      A signature that is not a string raises on `.encode`; one that is not
      base64 raises in decodebytes; neither exception is caught. */
  function RawVerify(c: Crypto, content: string, signature: Value, publicKey: string): (r: Result<bool, Error>)
    ensures !signature.Str? ==> r == Failure(AttributeError)
    ensures signature.Str? && c.decodeBytes(signature.s).None? ==> r == Failure(Base64Error)
    ensures r == Success(true) ==>
              signature.Str? && c.decodeBytes(signature.s).Some? &&
              c.pkcs1Verify(content, c.decodeBytes(signature.s).value, publicKey)
    ensures signature.Str? && c.decodeBytes(signature.s).Some? ==>
              r == Success(c.pkcs1Verify(content, c.decodeBytes(signature.s).value, publicKey))
  {
    match signature
    case Str(s) =>
      (match c.decodeBytes(s)
       case Some(raw) => Success(c.pkcs1Verify(content, raw, publicKey))
       case None => Failure(Base64Error))
    case _ => Failure(AttributeError)
  }

  /** A signature made by set_sign over some content verifies against that
      content with the matching public key. */
  lemma {:induction false} SetSignVerifies(c: Crypto, content: string, privateKey: string)
    requires Sound(c)
    ensures RawVerify(c, content, Str(SetSign(c, content, privateKey)), c.publicKeyOf(privateKey)) == Success(true)
  {
    var raw := c.pkcs1Sign(content, privateKey);
    assert c.decodeBytes(StripNewlines(c.encodeBytes(raw))) == Some(raw);
    assert c.pkcs1Verify(content, raw, c.publicKeyOf(privateKey));
  }

  /** The caller's dict part way through ordered_data's second loop: the
      entries under the keys in `done` compacted, the others as they were. */
  function PartlyCompacted(orig: Items, done: seq<string>): (r: Items)
    ensures |r| == |orig|
    ensures forall i :: 0 <= i < |orig| ==> r[i].0 == orig[i].0
  {
    seq(|orig|, i requires 0 <= i < |orig| => if orig[i].0 in done then (orig[i].0, Compact(orig[i].1)) else orig[i])
  }

  /** One more iteration of the second loop: `d[key] = json.dumps(d[key], ...)`
      on a complex key not yet rewritten, which still holds its old value. */
  lemma CompactOneMore(orig: Items, done: seq<string>, key: string, at: nat)
    requires UniqueKeys(orig) && at < |orig| && orig[at].0 == key && orig[at].1.Obj? && key !in done
    ensures UniqueKeys(PartlyCompacted(orig, done))
    ensures Lookup(PartlyCompacted(orig, done), key) == Some(orig[at].1)
    ensures Put(PartlyCompacted(orig, done), key, Str(Json.Dumps(orig[at].1, Json.Compact)))
         == PartlyCompacted(orig, done + [key])
  {
    var before := PartlyCompacted(orig, done);
    assert before[at] == orig[at];
    LookupAt(before, at);
    var after := Put(before, key, Str(Json.Dumps(orig[at].1, Json.Compact)));
    forall i | 0 <= i < |orig| ensures after[i] == PartlyCompacted(orig, done + [key])[i] {
      if orig[i].0 == key {
        assert i == at;
      }
    }
  }

  /** Once every complex key is done, the dict is the compacted one. */
  lemma AllCompacted(orig: Items, done: seq<string>)
    requires forall i :: 0 <= i < |orig| ==> (orig[i].1.Obj? <==> orig[i].0 in done)
    ensures PartlyCompacted(orig, done) == Compacted(orig)
  {
  }

  /** No key is compacted before the second loop starts. */
  lemma NoneCompacted(orig: Items)
    ensures PartlyCompacted(orig, []) == orig
  {
  }

  /** ordered_data's first loop: the keys whose values are dicts, each
      once, in dict order, with the position each stands at. */
  method ComplexKeys(items: Items) returns (keys: seq<string>, ghost positions: seq<nat>)
    requires UniqueKeys(items)
    ensures forall idx :: 0 <= idx < |items| ==> (items[idx].1.Obj? <==> items[idx].0 in keys)
    ensures |positions| == |keys|
    ensures forall t :: 0 <= t < |keys| ==>
              positions[t] < |items| && items[positions[t]].0 == keys[t] && items[positions[t]].1.Obj?
    ensures forall t :: 0 <= t < |keys| ==> keys[t] !in keys[..t]
    ensures forall s, t :: 0 <= s < t < |keys| ==> positions[s] < positions[t]
  {
    keys, positions := [], [];
    var i := 0;
    while i < |items|
      invariant 0 <= i <= |items|
      invariant forall idx :: 0 <= idx < i ==> (items[idx].1.Obj? <==> items[idx].0 in keys)
      invariant |positions| == |keys|
      invariant forall t :: 0 <= t < |keys| ==>
                  positions[t] < i && items[positions[t]].0 == keys[t] && items[positions[t]].1.Obj?
      invariant forall a, b :: 0 <= a < b < |keys| ==> keys[a] != keys[b]
      invariant forall s, t :: 0 <= s < t < |keys| ==> positions[s] < positions[t]
    {
      if items[i].1.Obj? {
        keys := keys + [items[i].0];
        positions := positions + [i];
      }
      i := i + 1;
    }
  }

  /** One iteration of ordered_data's second loop: `d[key] = json.dumps(d[key], ...)`. */
  method CompactEntry(d: Dict, key: string, ghost orig: Items, ghost done: seq<string>, ghost at: nat)
    requires UniqueKeys(orig) && at < |orig| && orig[at].0 == key && orig[at].1.Obj? && key !in done
    requires d.items == PartlyCompacted(orig, done)
    modifies d
    ensures d.items == PartlyCompacted(orig, done + [key])
  {
    CompactOneMore(orig, done, key, at);
    var current := Lookup(d.items, key);
    d.Set(key, Str(Json.Dumps(current.value, Json.Compact)));
  }

  /** ordered_data: rewrites every dict value of the caller's dict, in
      place, to its compact JSON, and returns the entries sorted by key. */
  method OrderedData(d: Dict) returns (pairs: Items)
    requires d.Valid()
    modifies d
    ensures d.Valid()
    ensures d.items == Compacted(old(d.items))
    ensures pairs == SortedEntries(old(d.items))
  {
    ghost var orig := d.items;
    var complexKeys, positions := ComplexKeys(d.items);
    NoneCompacted(orig);
    var j := 0;
    while j < |complexKeys|
      invariant 0 <= j <= |complexKeys|
      invariant d.items == PartlyCompacted(orig, complexKeys[..j])
    {
      var key := complexKeys[j];
      CompactEntry(d, key, orig, complexKeys[..j], positions[j]);
      assert complexKeys[..j + 1] == complexKeys[..j] + [key];
      j := j + 1;
    }
    assert complexKeys[..j] == complexKeys;
    AllCompacted(orig, complexKeys);
    CompactedUnique(orig);
    pairs := SortByKey(d.items);
  }

  /** sign_data: removes `sign` from the caller's dict, rewrites its dict
      values in place, and signs the canonical string of what is left. */
  method SignData(c: Crypto, d: Dict, privateKey: string) returns (sign: string)
    requires d.Valid()
    modifies d
    ensures d.Valid()
    ensures d.items == Compacted(Remove(old(d.items), "sign"))
    ensures sign == SetSign(c, SignString(old(d.items)), privateKey)
  {
    var _ := d.Pop("sign", Null);
    var unsignedItems := OrderedData(d);
    var unsignedString := Join(unsignedItems);
    sign := SetSign(c, unsignedString, privateKey);
  }

  /** verify: removes `sign_type` from the caller's dict if present, rewrites
      its dict values in place, and checks the signature against the
      canonical string of what is left. */
  method Verify(c: Crypto, d: Dict, signature: Value, publicKey: string) returns (r: Result<bool, Error>)
    requires d.Valid()
    modifies d
    ensures d.Valid()
    ensures d.items == Compacted(Remove(old(d.items), "sign_type"))
    ensures r == RawVerify(c, VerifyString(old(d.items)), signature, publicKey)
  {
    if Lookup(d.items, "sign_type").Some? {
      var _ := d.Pop("sign_type", Null);
    } else {
      RemoveAbsent(d.items, "sign_type");
    }
    var unsignedItems := OrderedData(d);
    var message := Join(unsignedItems);
    r := RawVerify(c, message, signature, publicKey);
  }

  /** The entries _base_params starts from, in their order, before the
      business fields are merged in. */
  function BaseDefaults(appId: string, apiMethod: string, timestamp: string, kw: Items): (r: Items)
    ensures UniqueKeys(r)
    ensures forall p :: p in r ==> p.1.Str?
  {
    [("app_id", Str(appId)), ("method", Str(apiMethod)), ("charset", Str("utf-8")),
     ("sign_type", Str("RSA2")), ("timestamp", Str(timestamp)), ("version", Str("1.0")),
     ("biz_content", Str(Json.Dumps(Obj(kw), Json.Default)))]
  }

  /** Compacting keeps every key and compacts its value. */
  lemma CompactedLookup(items: Items, k: string)
    requires UniqueKeys(items)
    ensures Lookup(Compacted(items), k) == if Lookup(items, k).Some? then Some(Compact(Lookup(items, k).value)) else None
  {
    var r := Compacted(items);
    CompactedUnique(items);
    if Lookup(items, k).Some? {
      var i :| 0 <= i < |items| && items[i] == (k, Lookup(items, k).value);
      LookupFinds(r, k, r[i].1);
    } else {
      forall p | p in r ensures p.0 != k {
        var i :| 0 <= i < |r| && r[i] == p;
        assert items[i] in items;
      }
    }
  }

  /** What sign_data leaves in the dict, with `sign` then set: the other
      entries compacted, in their order, followed by `sign`; the signature
      covers exactly the entries before it. */
  lemma SignedEntries(merged: Items, sig: string)
    requires UniqueKeys(merged)
    ensures var signed := Compacted(Remove(merged, "sign"));
            var params := Put(signed, "sign", Str(sig));
            && UniqueKeys(signed) && UniqueKeys(params)
            && params == signed + [("sign", Str(sig))]
            && Join(SortedEntries(signed)) == SignString(merged)
            && Lookup(params, "sign") == Some(Str(sig))
            && forall k :: k != "sign" ==>
                 Lookup(params, k) == if Lookup(merged, k).Some? then Some(Compact(Lookup(merged, k).value)) else None
  {
    var rest := Remove(merged, "sign");
    RemoveUnique(merged, "sign");
    CompactedUnique(rest);
    var signed := Compacted(rest);
    CompactedLookup(rest, "sign");
    RemoveLookup(merged, "sign", "sign");
    PutLookup(signed, "sign", Str(sig));
    CompactedIdempotent(rest);
    forall k | k != "sign"
      ensures Lookup(Put(signed, "sign", Str(sig)), k) ==
              if Lookup(merged, k).Some? then Some(Compact(Lookup(merged, k).value)) else None
    {
      CompactedLookup(rest, k);
      RemoveLookup(merged, "sign", k);
    }
  }

  /** The dict _base_params returns, seen through `get`: `sign`, every
      business field compacted, and the string-valued defaults the business
      fields do not override. */
  lemma EnvelopeLookups(defaults: Items, kw: Items, sig: string)
    requires UniqueKeys(defaults) && UniqueKeys(kw)
    requires forall p :: p in defaults ==> p.1.Str?
    ensures UniqueKeys(UpdateAll(defaults, kw))
    ensures var params := Put(Compacted(Remove(UpdateAll(defaults, kw), "sign")), "sign", Str(sig));
            && (forall k :: Lookup(params, k).Some? <==> k == "sign" || Lookup(kw, k).Some? || Lookup(defaults, k).Some?)
            && (forall k :: k != "sign" && Lookup(kw, k).Some? ==> Lookup(params, k) == Some(Compact(Lookup(kw, k).value)))
            && (forall k :: k != "sign" && Lookup(kw, k).None? ==> Lookup(params, k) == Lookup(defaults, k))
  {
    var merged := UpdateAll(defaults, kw);
    UpdateLookup(defaults, kw);
    SignedEntries(merged, sig);
    forall k | k != "sign" && Lookup(kw, k).None? && Lookup(defaults, k).Some?
      ensures Compact(Lookup(defaults, k).value) == Lookup(defaults, k).value
    {
      assert Lookup(defaults, k).value.Str?;
    }
  }

  /** _base_params: the envelope of a modern API request. The defaults
      (charset utf-8, version 1.0, sign_type RSA2, app_id, method, the
      timestamp and biz_content = json.dumps(kw)) are overridden by every
      business field of the same name; dict-valued business fields end up
      as compact JSON (sign_data rewrites them in place); and the last entry
      is `sign`, the signature over all the other entries. */
  method BaseParams(c: Crypto, appId: string, apiMethod: string, privateKey: string, kw: Items, timestamp: string)
    returns (params: Items)
    requires UniqueKeys(kw)
    requires Lookup(kw, "app_id").None? && Lookup(kw, "method").None? && Lookup(kw, "private_key").None?
    ensures UniqueKeys(params) && |params| > 0
    ensures params[|params| - 1] == ("sign", Str(SetSign(c, Join(SortedEntries(params[..|params| - 1])), privateKey)))
    ensures forall k :: Lookup(params, k).Some? <==>
              k == "sign" || Lookup(kw, k).Some? || Lookup(BaseDefaults(appId, apiMethod, timestamp, kw), k).Some?
    ensures forall k :: k != "sign" && Lookup(kw, k).Some? ==> Lookup(params, k) == Some(Compact(Lookup(kw, k).value))
    ensures forall k :: k != "sign" && Lookup(kw, k).None? ==>
              Lookup(params, k) == Lookup(BaseDefaults(appId, apiMethod, timestamp, kw), k)
  {
    var defaults := BaseDefaults(appId, apiMethod, timestamp, kw);
    var allParams := new Dict(defaults);
    allParams.Update(kw);
    ghost var merged := allParams.items;
    var sign := SignData(c, allParams, privateKey);
    allParams.Set("sign", Str(sign));
    params := allParams.items;
    SignedEntries(merged, sign);
    EnvelopeLookups(defaults, kw, sign);
  }
}

=== FILE: json.dfy ===
/** Python's `json.dumps` on the values of PyData, with its defaults
    (ensure_ascii, keys in insertion order), and `str()` of a value. */
module Json {
  import opened PyData

  /** The two separator settings the payment code uses:
      `separators=(',', ':')` and json.dumps's default `(', ', ': ')`. */
  datatype Separators = Compact | Default

  function ItemSeparator(sep: Separators): string {
    if sep.Compact? then "," else ", "
  }

  function KeySeparator(sep: Separators): string {
    if sep.Compact? then ":" else ": "
  }

  predicate PrintableAscii(s: string) {
    forall c :: c in s ==> ' ' <= c <= '~'
  }

  function HexDigit(d: nat): (c: char)
    requires d < 16
    ensures ' ' < c <= '~'
  {
    "0123456789abcdef"[d]
  }

  /** Four lower-case hexadecimal digits, as in `'\\u{0:04x}'.format(n)`. */
  function Hex4(n: nat): (r: string)
    requires n < 0x10000
    ensures |r| == 4 && PrintableAscii(r) && ' ' !in r
  {
    [HexDigit(n / 0x1000), HexDigit(n / 0x100 % 16), HexDigit(n / 0x10 % 16), HexDigit(n % 16)]
  }

  /** How json escapes one character of a string when ensure_ascii is set:
      the short escapes for quote, backslash and five control characters,
      printable ASCII unchanged, every other character as `\uXXXX` (a
      surrogate pair above U+FFFF). */
  function EscapeChar(c: char): (r: string)
    ensures PrintableAscii(r)
    ensures ' ' in r ==> c == ' '
  {
    var n := c as int;
    if c == '"' then "\\\""
    else if c == '\\' then "\\\\"
    else if c == '\n' then "\\n"
    else if c == '\r' then "\\r"
    else if c == '\t' then "\\t"
    else if n == 8 then "\\b"
    else if n == 12 then "\\f"
    else if 0x20 <= n < 0x7F then [c]
    else if n < 0x10000 then "\\u" + Hex4(n)
    else
      var m := n - 0x10000;
      "\\u" + Hex4(0xD800 + m / 0x400) + "\\u" + Hex4(0xDC00 + m % 0x400)
  }

  function Escape(s: string): (r: string)
    ensures PrintableAscii(r)
    ensures ' ' !in s ==> ' ' !in r
  {
    if s == [] then [] else EscapeChar(s[0]) + Escape(s[1..])
  }

  /** A JSON string literal. */
  function Quote(s: string): (r: string)
    ensures PrintableAscii(r) && |r| >= 2 && r[0] == '"' && r[|r| - 1] == '"'
    ensures ' ' !in s ==> ' ' !in r
  {
    "\"" + Escape(s) + "\""
  }

  /** No key and no string anywhere in `v` contains a space. */
  predicate NoSpaces(v: Value)
    decreases v
  {
    match v
    case Str(s) => ' ' !in s
    case Int(_) => true
    case Null => true
    case Obj(fs) => forall i :: 0 <= i < |fs| ==> ' ' !in fs[i].0 && NoSpaces(fs[i].1)
  }

  /** `json.dumps(v, separators=...)`: a dictionary is braced. */
  function Dumps(v: Value, sep: Separators): (r: string)
    ensures v.Obj? ==> |r| >= 2 && r[0] == '{' && r[|r| - 1] == '}'
    decreases v, 1
  {
    match v
    case Str(s) => Quote(s)
    case Int(i) => IntToString(i)
    case Null => "null"
    case Obj(fs) => "{" + DumpsFields(v, 0, sep) + "}"
  }

  /** The entries of dictionary `v` from the `i`-th on, separated. */
  function DumpsFields(v: Value, i: nat, sep: Separators): (r: string)
    requires v.Obj? && i <= |v.fields|
    decreases v, 0, |v.fields| - i
  {
    if i == |v.fields| then ""
    else
      var entry := Quote(v.fields[i].0) + KeySeparator(sep) + Dumps(v.fields[i].1, sep);
      if i + 1 == |v.fields| then entry else entry + ItemSeparator(sep) + DumpsFields(v, i + 1, sep)
  }

  lemma ConcatAscii(a: string, b: string)
    requires PrintableAscii(a) && PrintableAscii(b)
    ensures PrintableAscii(a + b)
  {
  }

  /** json.dumps with ensure_ascii writes printable ASCII only, whatever
      characters the keys and strings hold. */
  lemma {:induction false} DumpsIsPrintableAscii(v: Value, sep: Separators)
    ensures PrintableAscii(Dumps(v, sep))
    decreases v, 1
  {
    if v.Obj? {
      FieldsArePrintableAscii(v, 0, sep);
      ConcatAscii("{", DumpsFields(v, 0, sep));
      ConcatAscii("{" + DumpsFields(v, 0, sep), "}");
    }
  }

  lemma {:induction false} FieldsArePrintableAscii(v: Value, i: nat, sep: Separators)
    requires v.Obj? && i <= |v.fields|
    ensures PrintableAscii(DumpsFields(v, i, sep))
    decreases v, 0, |v.fields| - i
  {
    if i < |v.fields| {
      var key := Quote(v.fields[i].0);
      var value := Dumps(v.fields[i].1, sep);
      DumpsIsPrintableAscii(v.fields[i].1, sep);
      ConcatAscii(key, KeySeparator(sep));
      ConcatAscii(key + KeySeparator(sep), value);
      var entry := key + KeySeparator(sep) + value;
      if i + 1 < |v.fields| {
        FieldsArePrintableAscii(v, i + 1, sep);
        ConcatAscii(entry, ItemSeparator(sep));
        ConcatAscii(entry + ItemSeparator(sep), DumpsFields(v, i + 1, sep));
      }
    }
  }

  /** With compact separators the JSON text holds no whitespace of its own:
      a space in it comes from a key or a string of the value. */
  lemma {:induction false} CompactHasNoSpaces(v: Value)
    requires NoSpaces(v)
    ensures ' ' !in Dumps(v, Compact)
    decreases v, 1
  {
    if v.Obj? {
      FieldsHaveNoSpaces(v, 0);
    }
  }

  lemma {:induction false} FieldsHaveNoSpaces(v: Value, i: nat)
    requires v.Obj? && i <= |v.fields| && NoSpaces(v)
    ensures ' ' !in DumpsFields(v, i, Compact)
    decreases v, 0, |v.fields| - i
  {
    if i < |v.fields| {
      CompactHasNoSpaces(v.fields[i].1);
      if i + 1 < |v.fields| {
        FieldsHaveNoSpaces(v, i + 1);
      }
    }
  }

  /** `str(v)` as `"{}".format(v)` and `%s` render it. A nested dictionary,
      which Python renders with its repr, is written here as its JSON text. */
  function Text(v: Value): string {
    match v
    case Str(s) => s
    case Int(i) => IntToString(i)
    case Null => "None"
    case Obj(_) => Dumps(v, Default)
  }
}

=== FILE: keyorder.dfy ===
/** Python's ordering of strings (code point by code point, a proper prefix
    first) and `sorted()` of a dict's entries, which compares the keys. */
module KeyOrder {
  import opened PyData

  /** `a < b` on Python strings. */
  predicate Less(a: string, b: string)
    decreases |a|
  {
    |b| > 0 && (|a| == 0 || a[0] < b[0] || (a[0] == b[0] && Less(a[1..], b[1..])))
  }

  lemma {:induction false} LessIrreflexive(a: string)
    ensures !Less(a, a)
    decreases |a|
  {
    if |a| > 0 {
      LessIrreflexive(a[1..]);
    }
  }

  lemma {:induction false} LessTransitive(a: string, b: string, c: string)
    requires Less(a, b) && Less(b, c)
    ensures Less(a, c)
    decreases |a|
  {
    if |a| > 0 && a[0] == b[0] && b[0] == c[0] {
      LessTransitive(a[1..], b[1..], c[1..]);
    }
  }

  /** Two different strings are ordered one way or the other, never both. */
  lemma {:induction false} LessTotal(a: string, b: string)
    ensures a != b <==> (Less(a, b) || Less(b, a))
    ensures !(Less(a, b) && Less(b, a))
    decreases |a|
  {
    if |a| > 0 && |b| > 0 && a[0] == b[0] {
      LessTotal(a[1..], b[1..]);
      assert a == [a[0]] + a[1..] && b == [b[0]] + b[1..];
    } else if |a| == 0 && |b| == 0 {
      LessIrreflexive(a);
    }
  }

  /** The entries are in strictly ascending key order. */
  predicate StrictlySorted(s: Items) {
    forall i, j :: 0 <= i < j < |s| ==> Less(s[i].0, s[j].0)
  }

  /** Places entry `p` into sorted `s` before the first larger key. */
  function Insert(p: (string, Value), s: Items): (r: Items)
    ensures multiset(r) == multiset(s) + multiset{p}
    ensures |r| == |s| + 1
  {
    if s == [] then [p]
    else if Less(s[0].0, p.0) then
      assert s == [s[0]] + s[1..];
      [s[0]] + Insert(p, s[1..])
    else [p] + s
  }

  lemma {:induction false} InsertSorted(p: (string, Value), s: Items)
    requires StrictlySorted(s)
    requires forall q :: q in s ==> q.0 != p.0
    ensures StrictlySorted(Insert(p, s))
  {
    var r := Insert(p, s);
    if s != [] {
      if Less(s[0].0, p.0) {
        InsertSorted(p, s[1..]);
        var rest := Insert(p, s[1..]);
        forall j | 0 < j < |r| ensures Less(r[0].0, r[j].0) {
          assert r[j] == rest[j - 1];
          assert r[j] in multiset(s[1..]) + multiset{p};
          if r[j] != p {
            var k :| 0 <= k < |s[1..]| && s[1..][k] == r[j];
            assert s[k + 1] == r[j];
          }
        }
        forall i, j | 0 <= i < j < |r| ensures Less(r[i].0, r[j].0) {
          if i > 0 {
            assert r[i] == rest[i - 1] && r[j] == rest[j - 1];
          }
        }
      } else {
        assert s[0] in s;
        LessTotal(s[0].0, p.0);
        forall i, j | 0 <= i < j < |r| ensures Less(r[i].0, r[j].0) {
          if i == 0 {
            assert r[j] == s[j - 1];
            if j > 1 {
              LessTransitive(p.0, s[0].0, s[j - 1].0);
            }
          } else {
            assert r[i] == s[i - 1] && r[j] == s[j - 1];
          }
        }
      }
    }
  }

  /** `sorted(d.items())`: the entries of a dict in ascending key order. */
  function SortByKey(s: Items): (r: Items)
    ensures multiset(r) == multiset(s)
    ensures |r| == |s|
  {
    if s == [] then []
    else
      assert s == [s[0]] + s[1..];
      Insert(s[0], SortByKey(s[1..]))
  }

  /** The entries of a dict come out of `sorted()` in strictly ascending key order. */
  lemma {:induction false} SortByKeySorted(s: Items)
    requires UniqueKeys(s)
    ensures StrictlySorted(SortByKey(s))
  {
    if s != [] {
      UniqueTail(s);
      SortByKeySorted(s[1..]);
      var rest := SortByKey(s[1..]);
      forall q | q in rest ensures q.0 != s[0].0 {
        assert q in multiset(rest);
        assert q in s[1..];
      }
      InsertSorted(s[0], rest);
    }
  }

  /** Two strictly sorted sequences with the same entries are the same. */
  lemma {:induction false} SortedUnique(a: Items, b: Items)
    requires StrictlySorted(a) && StrictlySorted(b)
    requires forall p :: p in a <==> p in b
    ensures a == b
  {
    if a != [] {
      assert a[0] in b;
    }
    if b != [] {
      assert b[0] in a;
    }
    if a != [] && b != [] {
      if a[0] != b[0] {
        var i :| 0 <= i < |a| && a[i] == b[0];
        var j :| 0 <= j < |b| && b[j] == a[0];
        LessTotal(a[0].0, b[0].0);
      }
      forall p ensures p in a[1..] <==> p in b[1..] {
        if p in a[1..] {
          var i :| 0 <= i < |a[1..]| && a[1..][i] == p;
          assert a[i + 1] == p;
          LessIrreflexive(p.0);
          assert p in b;
          var j :| 0 <= j < |b| && b[j] == p;
          assert j != 0;
          assert b[1..][j - 1] == p;
        }
        if p in b[1..] {
          var j :| 0 <= j < |b[1..]| && b[1..][j] == p;
          assert b[j + 1] == p;
          LessIrreflexive(p.0);
          assert p in a;
          var i :| 0 <= i < |a| && a[i] == p;
          assert i != 0;
          assert a[1..][i - 1] == p;
        }
      }
      SortedUnique(a[1..], b[1..]);
      assert a == [a[0]] + a[1..] && b == [b[0]] + b[1..];
    }
  }

  /** `sorted()` of a dict depends only on its entries, not on the order in
      which they were inserted. */
  lemma SortIgnoresInsertionOrder(a: Items, b: Items)
    requires UniqueKeys(a) && UniqueKeys(b)
    requires forall p :: p in a <==> p in b
    ensures SortByKey(a) == SortByKey(b)
  {
    var sa, sb := SortByKey(a), SortByKey(b);
    SortByKeySorted(a);
    SortByKeySorted(b);
    forall p | p in sa ensures p in sb {
      assert p in multiset(sa);
      assert p in multiset(a);
      assert p in b;
      assert p in multiset(b);
      assert p in multiset(sb);
    }
    forall p | p in sb ensures p in sa {
      assert p in multiset(sb);
      assert p in multiset(b);
      assert p in a;
      assert p in multiset(a);
      assert p in multiset(sa);
    }
    SortedUnique(sa, sb);
  }
}

=== FILE: payment.dfy ===
/** The acquirer and transaction extensions of models/payment.py: the
    gateway URL, the signed form values sent to Alipay, how a notification
    finds its transaction, and the outcome it records. The ORM is modelled
    as a store of transaction records. */
module Payment {
  import opened Wrappers
  import opened PyData
  import Json
  import Routes

  /** The production gateway. */
  const ProdGateway := "https://mapi.alipay.com/gateway.do?"

  /** The sandbox gateway. */
  const SandboxGateway := "https://openapi.alipaydev.com/gateway.do?"

  /** _get_alipay_urls: a dict holding only `alipay_form_url`, the
      production gateway for `prod` and the sandbox gateway otherwise. */
  function AlipayUrls(environment: string): (r: Items)
    ensures UniqueKeys(r)
    ensures |r| == 1 && r[0].0 == "alipay_form_url"
    ensures r[0].1 == Str(ProdGateway) <==> environment == "prod"
    ensures r[0].1 == Str(SandboxGateway) <==> environment != "prod"
  {
    if environment == "prod" then [("alipay_form_url", Str(ProdGateway))]
    else [("alipay_form_url", Str(SandboxGateway))]
  }

  /** alipay_get_form_action_url: the production gateway exactly for the
      `prod` environment, the sandbox gateway for every other one. */
  function FormActionUrl(environment: string): (r: Value)
    ensures r == Str(ProdGateway) <==> environment == "prod"
    ensures r == Str(SandboxGateway) <==> environment != "prod"
  {
    Lookup(AlipayUrls(environment), "alipay_form_url").value
  }

  /** The fields of a payment.acquirer record the module reads; unset fields
      are Python's False, modelled as any falsy value. */
  datatype Acquirer = Acquirer(
    partner: Value,      // alipay_partner
    sellerId: Value,     // alipay_seller_id
    publicKey: string,   // alipay_public_key, the PEM text RSA.importKey reads
    signType: Value,     // alipay_sign_type
    transport: Value,    // alipay_transport: 'https' or 'http'
    service: Value,      // alipay_service
    environment: string, // 'prod' or 'test'
    companyName: Value)  // company_id.name

  /** `'%s: %s' % (company name, reference)` */
  function Subject(companyName: Value, reference: Value): string {
    Json.Text(companyName) + ": " + Json.Text(reference)
  }

  /** The keys of the protocol fields alipay_form_generate_values writes
      over the caller's values, in the order of its dict literal. */
  const ProtocolKeys: seq<string> :=
    ["service", "partner", "_input_charset", "sign_type", "return_url", "notify_url", "out_trade_no",
     "subject", "payment_type", "total_fee", "seller_id", "seller_email", "seller_account_name", "body"]

  /** `subkey`: the keys whose values are signed, in order. */
  const SignedKeys: seq<string> :=
    ["service", "partner", "_input_charset", "return_url", "notify_url", "out_trade_no",
     "subject", "payment_type", "total_fee", "seller_id", "body"]

  lemma ProtocolKeysDistinct()
    ensures forall i, j :: 0 <= i < j < |ProtocolKeys| ==> ProtocolKeys[i] != ProtocolKeys[j]
  {
  }

  /** The value of each protocol field, key by key. */
  function ProtocolValues(acq: Acquirer, returnUrl: string, notifyUrl: string, reference: Value, amount: Value): (r: seq<Value>)
    ensures |r| == |ProtocolKeys|
  {
    [acq.service, acq.partner, Str("utf-8"), acq.signType, Str(returnUrl), Str(notifyUrl), reference,
     Str(Subject(acq.companyName, reference)), Str("1"), amount, acq.sellerId, acq.sellerId, acq.sellerId, Str("")]
  }

  /** The protocol fields as a dict. */
  function ProtocolFields(acq: Acquirer, returnUrl: string, notifyUrl: string, reference: Value, amount: Value): (r: Items)
    ensures UniqueKeys(r) && |r| == |ProtocolKeys|
    ensures forall i :: 0 <= i < |r| ==> r[i] == (ProtocolKeys[i], ProtocolValues(acq, returnUrl, notifyUrl, reference, amount)[i])
  {
    ProtocolKeysDistinct();
    var values := ProtocolValues(acq, returnUrl, notifyUrl, reference, amount);
    seq(|ProtocolKeys|, i requires 0 <= i < |ProtocolKeys| => (ProtocolKeys[i], values[i]))
  }

  lemma ProtocolFieldAt(acq: Acquirer, returnUrl: string, notifyUrl: string, reference: Value, amount: Value, i: nat)
    requires i < |ProtocolKeys|
    ensures Lookup(ProtocolFields(acq, returnUrl, notifyUrl, reference, amount), ProtocolKeys[i]) ==
            Some(ProtocolValues(acq, returnUrl, notifyUrl, reference, amount)[i])
  {
    var protocol := ProtocolFields(acq, returnUrl, notifyUrl, reference, amount);
    LookupFinds(protocol, ProtocolKeys[i], ProtocolValues(acq, returnUrl, notifyUrl, reference, amount)[i]);
  }

  /** `{key: d[key] for key in keys}`: fails on the first missing key. */
  function Project(items: Items, keys: seq<string>): (r: Result<Items, Error>)
    ensures r.Success? <==> forall i :: 0 <= i < |keys| ==> Lookup(items, keys[i]).Some?
    ensures r.Success? ==> |r.value| == |keys|
    ensures r.Success? ==> forall i :: 0 <= i < |keys| ==> r.value[i] == (keys[i], Lookup(items, keys[i]).value)
    ensures r.Failure? ==> exists i :: 0 <= i < |keys| && r == Failure(KeyError(keys[i])) && Lookup(items, keys[i]).None?
  {
    if keys == [] then Success([])
    else
      match Lookup(items, keys[0])
      case None => Failure(KeyError(keys[0]))
      case Some(v) =>
        var rest := Project(items, keys[1..]);
        if rest.Failure? then
          assert forall i :: 1 <= i < |keys| ==> keys[i] == keys[1..][i - 1];
          rest
        else
          Success([(keys[0], v)] + rest.value)
  }

  /** The projection reads only the projected keys. */
  lemma {:induction false} ProjectAgrees(a: Items, b: Items, keys: seq<string>)
    requires forall i :: 0 <= i < |keys| ==> Lookup(a, keys[i]) == Lookup(b, keys[i])
    ensures Project(a, keys) == Project(b, keys)
  {
    if keys != [] {
      assert forall i :: 0 <= i < |keys[1..]| ==> keys[1..][i] == keys[i + 1];
      ProjectAgrees(a, b, keys[1..]);
    }
  }

  /** The protocol fields sent but not signed are exactly `sign_type`,
      `seller_email` and `seller_account_name`. */
  lemma SignedKeysSubset()
    ensures forall k :: k in SignedKeys ==> k in ProtocolKeys
    ensures forall k :: k in ProtocolKeys && k !in SignedKeys <==> k in ["sign_type", "seller_email", "seller_account_name"]
  {
  }

  /** Every whitelisted key is a protocol field, so the projection of the
      protocol fields on the whitelist always succeeds. */
  lemma SignedKeysAreProtocolFields(acq: Acquirer, returnUrl: string, notifyUrl: string, reference: Value, amount: Value)
    ensures Project(ProtocolFields(acq, returnUrl, notifyUrl, reference, amount), SignedKeys).Success?
  {
    var protocol := ProtocolFields(acq, returnUrl, notifyUrl, reference, amount);
    SignedKeysSubset();
    forall n | 0 <= n < |SignedKeys| ensures Lookup(protocol, SignedKeys[n]).Some? {
      assert SignedKeys[n] in SignedKeys;
      var i :| 0 <= i < |ProtocolKeys| && ProtocolKeys[i] == SignedKeys[n];
      assert protocol[i] in protocol;
    }
  }

  /** The values alipay_form_generate_values sets whatever the caller sent. */
  lemma ProtocolFieldValues(acq: Acquirer, returnUrl: string, notifyUrl: string, reference: Value, amount: Value)
    ensures var protocol := ProtocolFields(acq, returnUrl, notifyUrl, reference, amount);
            && Lookup(protocol, "out_trade_no") == Some(reference)
            && Lookup(protocol, "total_fee") == Some(amount)
            && Lookup(protocol, "payment_type") == Some(Str("1"))
            && Lookup(protocol, "body") == Some(Str(""))
  {
    ProtocolFieldAt(acq, returnUrl, notifyUrl, reference, amount, 6);
    ProtocolFieldAt(acq, returnUrl, notifyUrl, reference, amount, 9);
    ProtocolFieldAt(acq, returnUrl, notifyUrl, reference, amount, 8);
    ProtocolFieldAt(acq, returnUrl, notifyUrl, reference, amount, 13);
  }

  /** After `d.update(fields)`, projecting on keys that `fields` all holds
      reads only `fields`. */
  lemma ProjectAfterUpdate(values: Items, fields: Items, keys: seq<string>)
    requires UniqueKeys(values) && UniqueKeys(fields)
    requires Project(fields, keys).Success?
    ensures Project(UpdateAll(values, fields), keys) == Project(fields, keys)
  {
    UpdateLookup(values, fields);
    ProjectAgrees(UpdateAll(values, fields), fields, keys);
  }

  /** `d.update(fields)` followed by `d['sign'] = sig`: every key of either
      dict and `sign`, the fields winning over the dict's own entries. */
  lemma MergeThenSign(values: Items, fields: Items, sig: Value)
    requires UniqueKeys(values) && UniqueKeys(fields)
    ensures var r := Put(UpdateAll(values, fields), "sign", sig);
            && UniqueKeys(r)
            && Lookup(r, "sign") == Some(sig)
            && (forall k :: Lookup(r, k).Some? <==> k == "sign" || Lookup(values, k).Some? || Lookup(fields, k).Some?)
            && (forall k :: k != "sign" && Lookup(fields, k).Some? ==> Lookup(r, k) == Lookup(fields, k))
            && (forall k :: k != "sign" && Lookup(fields, k).None? ==> Lookup(r, k) == Lookup(values, k))
  {
    UpdateLookup(values, fields);
    PutLookup(UpdateAll(values, fields), "sign", sig);
  }

  /** alipay_form_generate_values: the caller's values, overridden by the
      protocol fields, plus `sign`, the signature of exactly the whitelisted
      protocol fields. A missing `reference` or `amount` raises KeyError,
      `reference` first. The signer is the private-key signer the source
      calls on the whitelisted map and the key file's text. */
  method GenerateValues(acq: Acquirer, values: Items, baseUrl: string, urljoin: (string, string) -> string,
                        privateKeyPem: string, signer: (Items, string) -> string)
    returns (r: Result<Items, Error>)
    requires UniqueKeys(values)
    ensures Lookup(values, "reference").None? ==> r == Failure(KeyError("reference"))
    ensures Lookup(values, "reference").Some? && Lookup(values, "amount").None? ==> r == Failure(KeyError("amount"))
    ensures r.Success? <==> Lookup(values, "reference").Some? && Lookup(values, "amount").Some?
    ensures r.Success? ==> UniqueKeys(r.value)
    ensures r.Success? ==>
              var protocol := ProtocolFields(acq, urljoin(baseUrl, Routes.ReturnPath), urljoin(baseUrl, Routes.NotifyPath),
                                             Lookup(values, "reference").value, Lookup(values, "amount").value);
              && Project(protocol, SignedKeys).Success?
              && Lookup(r.value, "sign") == Some(Str(signer(Project(protocol, SignedKeys).value, privateKeyPem)))
              && (forall k :: Lookup(r.value, k).Some? <==> k == "sign" || Lookup(values, k).Some? || Lookup(protocol, k).Some?)
              && (forall k :: k != "sign" && Lookup(protocol, k).Some? ==> Lookup(r.value, k) == Lookup(protocol, k))
              && (forall k :: k != "sign" && Lookup(protocol, k).None? ==> Lookup(r.value, k) == Lookup(values, k))
    ensures r.Success? ==>
              && Lookup(r.value, "out_trade_no") == Lookup(values, "reference")
              && Lookup(r.value, "total_fee") == Lookup(values, "amount")
              && Lookup(r.value, "payment_type") == Some(Str("1"))
              && Lookup(r.value, "body") == Some(Str(""))
  {
    var txValues := new Dict(values);
    var reference := Lookup(values, "reference");
    if reference.None? {
      return Failure(KeyError("reference"));
    }
    var amount := Lookup(values, "amount");
    if amount.None? {
      return Failure(KeyError("amount"));
    }
    var returnUrl := urljoin(baseUrl, Routes.ReturnPath);
    var notifyUrl := urljoin(baseUrl, Routes.NotifyPath);
    var protocol := ProtocolFields(acq, returnUrl, notifyUrl, reference.value, amount.value);
    txValues.Update(protocol);
    SignedKeysAreProtocolFields(acq, returnUrl, notifyUrl, reference.value, amount.value);
    ProtocolFieldValues(acq, returnUrl, notifyUrl, reference.value, amount.value);
    ProjectAfterUpdate(values, protocol, SignedKeys);
    var needSign := Project(txValues.items, SignedKeys);
    var sign := signer(needSign.value, privateKeyPem);
    txValues.Set("sign", Str(sign));
    MergeThenSign(values, protocol, Str(sign));
    r := Success(txValues.items);
  }

  /** A payment.transaction record: its reference and its stored fields. */
  datatype Tx = Tx(reference: string, fields: Items)

  /** The transaction states the module sets, and every other one. */
  datatype TxState = Done | Error | Other

  /** The state field of a record. */
  function StateOf(fields: Items): TxState {
    match Lookup(fields, "state")
    case Some(Str(s)) => if s == "done" then Done else if s == "error" then Error else Other
    case _ => Other
  }

  /** The statuses that mean the buyer has paid. */
  predicate Paid(status: Value) {
    status == Str("TRADE_FINISHED") || status == Str("TRADE_SUCCESS")
  }

  /** `{k: v, ...}`: a dict display; a repeated key keeps its first
      position and takes its last value. */
  function DictDisplay(entries: Items): (r: Items)
    ensures UniqueKeys(r)
  {
    UpdateUnique([], entries);
    UpdateAll([], entries)
  }

  /** The entries of the dict display `res` as written, with
      `acquirer_reference` twice. */
  function ResDisplay(data: Items): Items {
    [("acquirer_reference", GetOr(data, "out_trade_no", Null)),
     ("alipay_txn_type", GetOr(data, "payment_type", Null)),
     ("acquirer_reference", GetOr(data, "trade_no", Null)),
     ("partner_reference", GetOr(data, "buyer_id", Null))]
  }

  /** `res` before its update: `acquirer_reference` holds `trade_no`. */
  function ValidateBase(data: Items): (r: Items)
    ensures UniqueKeys(r)
  {
    [("acquirer_reference", GetOr(data, "trade_no", Null)),
     ("alipay_txn_type", GetOr(data, "payment_type", Null)),
     ("partner_reference", GetOr(data, "buyer_id", Null))]
  }

  lemma PutIntoEmpty(k: string, v: Value)
    ensures Put([], k, v) == [(k, v)]
  {
    PutNew([], k, v);
    assert [] + [(k, v)] == [(k, v)];
  }

  lemma PutAfterOne(e: (string, Value), k: string, v: Value)
    requires e.0 != k
    ensures Put([e], k, v) == [e, (k, v)]
  {
    PutNew([e], k, v);
    assert [e] + [(k, v)] == [e, (k, v)];
  }

  lemma PutAfterTwo(e1: (string, Value), e2: (string, Value), k: string, v: Value)
    requires e1.0 != k && e2.0 != k
    ensures Put([e1, e2], k, v) == [e1, e2, (k, v)]
  {
    PutNew([e1, e2], k, v);
    assert [e1, e2] + [(k, v)] == [e1, e2, (k, v)];
  }

  /** Assigning the first key of a two-entry dict replaces its value in place. */
  lemma PutFirstOfTwo(e1: (string, Value), e2: (string, Value), v: Value)
    requires e1.0 != e2.0
    ensures Put([e1, e2], e1.0, v) == [(e1.0, v), e2]
  {
    assert [e1, e2][0] in [e1, e2];
  }

  /** `d.update` with four entries is four assignments in a row. */
  lemma UpdateFour(s0: Items, e1: (string, Value), e2: (string, Value), e3: (string, Value), e4: (string, Value),
                   s1: Items, s2: Items, s3: Items, s4: Items)
    requires s1 == Put(s0, e1.0, e1.1) && s2 == Put(s1, e2.0, e2.1)
    requires s3 == Put(s2, e3.0, e3.1) && s4 == Put(s3, e4.0, e4.1)
    ensures UpdateAll(s0, [e1, e2, e3, e4]) == s4
  {
    assert [e4][1..] == [];
    assert UpdateAll(s3, [e4]) == s4;
    assert [e3, e4][1..] == [e4];
    assert UpdateAll(s2, [e3, e4]) == s4;
    assert [e2, e3, e4][1..] == [e3, e4];
    assert UpdateAll(s1, [e2, e3, e4]) == s4;
    assert [e1, e2, e3, e4][1..] == [e2, e3, e4];
  }

  /** A dict display whose first and third keys repeat: the repeated key
      keeps its first position and takes the third value. */
  lemma DisplayCollapse(a: string, b: string, d: string, v1: Value, v2: Value, v3: Value, v4: Value)
    requires a != b && a != d && b != d
    ensures UpdateAll([], [(a, v1), (b, v2), (a, v3), (d, v4)]) == [(a, v3), (b, v2), (d, v4)]
  {
    var e1, e2, e3, e4 := (a, v1), (b, v2), (a, v3), (d, v4);
    PutIntoEmpty(a, v1);
    PutAfterOne(e1, b, v2);
    PutFirstOfTwo(e1, e2, v3);
    PutAfterTwo(e3, e2, d, v4);
    UpdateFour([], e1, e2, e3, e4, [e1], [e1, e2], [e3, e2], [e3, e2, e4]);
  }

  /** The duplicate key of `res` collapses: `acquirer_reference` is
      `trade_no`, and the `out_trade_no` entry leaves no trace. */
  lemma ValidateBaseEntries(data: Items)
    ensures DictDisplay(ResDisplay(data)) == ValidateBase(data)
  {
    DisplayCollapse("acquirer_reference", "alipay_txn_type", "partner_reference",
                    GetOr(data, "out_trade_no", Null), GetOr(data, "payment_type", Null),
                    GetOr(data, "trade_no", Null), GetOr(data, "buyer_id", Null));
  }

  /** The message recorded for a status that is not a paid one. */
  function UnrecognizedStatus(reference: string, status: Value): string {
    "Received unrecognized status for Alipay payment " + reference + ": " + Json.Text(status) + ", set as error"
  }

  /** The entries added to `res` for a notification's status: `state` first,
      `done` exactly for a paid status and `error` otherwise. */
  function Outcome(reference: string, data: Items, now: Value): (r: Items)
    ensures UniqueKeys(r)
    ensures |r| == 2 && r[0].0 == "state"
    ensures r[0].1 == Str("done") <==> Paid(GetOr(data, "trade_status", Null))
    ensures r[0].1 == Str("error") <==> !Paid(GetOr(data, "trade_status", Null))
  {
    var status := GetOr(data, "trade_status", Null);
    if Paid(status) then [("state", Str("done")), ("date_validate", GetOr(data, "gmt_payment", now))]
    else [("state", Str("error")), ("state_message", Str(UnrecognizedStatus(reference, status)))]
  }

  /** The values _alipay_form_validate writes to the transaction: `res`
      followed by the entries of the outcome. */
  function FormValidateValues(reference: string, data: Items, now: Value): (r: Items)
    ensures UniqueKeys(r)
  {
    ValidateBase(data) + Outcome(reference, data, now)
  }

  /** Building `res` from its display and updating it with the outcome
      yields exactly the values written. */
  lemma ResThenOutcome(reference: string, data: Items, now: Value)
    ensures UpdateAll(DictDisplay(ResDisplay(data)), Outcome(reference, data, now)) == FormValidateValues(reference, data, now)
  {
    ValidateBaseEntries(data);
    var base, outcome := ValidateBase(data), Outcome(reference, data, now);
    UpdateFresh(base, outcome);
  }

  /** Whatever the status, _alipay_form_validate records `trade_no` as the
      acquirer reference (never `out_trade_no`), the payment type as the
      transaction type and the buyer as the partner reference. */
  lemma FormValidateReferences(reference: string, data: Items, now: Value)
    ensures var r := FormValidateValues(reference, data, now);
            && Lookup(r, "acquirer_reference") == Some(GetOr(data, "trade_no", Null))
            && Lookup(r, "alipay_txn_type") == Some(GetOr(data, "payment_type", Null))
            && Lookup(r, "partner_reference") == Some(GetOr(data, "buyer_id", Null))
  {
    var r := FormValidateValues(reference, data, now);
    LookupAt(r, 0);
    LookupAt(r, 1);
    LookupAt(r, 2);
  }

  /** A paid status (TRADE_FINISHED or TRADE_SUCCESS) sets state `done`,
      with `date_validate` the payment time, or now when it is absent. */
  lemma FormValidatePaid(reference: string, data: Items, now: Value)
    requires Paid(GetOr(data, "trade_status", Null))
    ensures var r := FormValidateValues(reference, data, now);
            && StateOf(r) == Done
            && Lookup(r, "date_validate") == Some(GetOr(data, "gmt_payment", now))
            && Lookup(r, "state_message").None?
  {
    var r := FormValidateValues(reference, data, now);
    PaidEntries(reference, data, now);
    LookupAt(r, 3);
    LookupAt(r, 4);
    LookupAbsent(r, "state_message");
  }

  /** The five entries `res` holds for a paid status. */
  lemma PaidEntries(reference: string, data: Items, now: Value)
    requires Paid(GetOr(data, "trade_status", Null))
    ensures var r := FormValidateValues(reference, data, now);
            && |r| == 5
            && r[3] == ("state", Str("done"))
            && r[4] == ("date_validate", GetOr(data, "gmt_payment", now))
            && forall i :: 0 <= i < |r| ==> r[i].0 != "state_message"
  {
  }

  /** Any other status, a missing one included, sets state `error` with a
      message naming the status, and no validation date. */
  lemma FormValidateUnpaid(reference: string, data: Items, now: Value)
    requires !Paid(GetOr(data, "trade_status", Null))
    ensures var r := FormValidateValues(reference, data, now);
            && StateOf(r) == Error
            && Lookup(r, "state_message") == Some(Str(UnrecognizedStatus(reference, GetOr(data, "trade_status", Null))))
            && Lookup(r, "date_validate").None?
  {
    UnpaidEntries(reference, data, now);
    UnpaidLookups(FormValidateValues(reference, data, now), Str(UnrecognizedStatus(reference, GetOr(data, "trade_status", Null))));
  }

  lemma UnpaidLookups(r: Items, message: Value)
    requires UniqueKeys(r) && |r| == 5
    requires r[3] == ("state", Str("error")) && r[4] == ("state_message", message)
    requires forall i :: 0 <= i < |r| ==> r[i].0 != "date_validate"
    ensures StateOf(r) == Error && Lookup(r, "state_message") == Some(message) && Lookup(r, "date_validate").None?
  {
    LookupAt(r, 3);
    LookupAt(r, 4);
    LookupAbsent(r, "date_validate");
  }

  /** The five entries `res` holds for an unpaid status. */
  lemma UnpaidEntries(reference: string, data: Items, now: Value)
    requires !Paid(GetOr(data, "trade_status", Null))
    ensures var r := FormValidateValues(reference, data, now);
            && |r| == 5
            && r[3] == ("state", Str("error"))
            && r[4] == ("state_message", Str(UnrecognizedStatus(reference, GetOr(data, "trade_status", Null))))
            && forall i :: 0 <= i < |r| ==> r[i].0 != "date_validate"
  {
  }

  /** The records whose reference equals `reference`, by ascending index:
      `search([('reference', '=', reference)])`. */
  function Matching(records: seq<Tx>, reference: Value): (r: seq<nat>)
    ensures forall t :: 0 <= t < |r| ==> r[t] < |records| && Str(records[r[t]].reference) == reference
    ensures forall i :: 0 <= i < |records| && Str(records[i].reference) == reference ==> i in r
    ensures forall s, t :: 0 <= s < t < |r| ==> r[s] < r[t]
  {
    if records == [] then []
    else
      var rest := Matching(records[..|records| - 1], reference);
      if Str(records[|records| - 1].reference) == reference then rest + [|records| - 1] else rest
  }

  function MissingReference(reference: Value, txnId: Value): string {
    "Alipay: received data with missing reference (" + Json.Text(reference) + ") or txn_id (" + Json.Text(txnId) + ")"
  }

  function NoOrder(reference: Value): string {
    "Alipay: received data for reference " + Json.Text(reference) + "; no order found"
  }

  function MultipleOrders(reference: Value): string {
    "Alipay: received data for reference " + Json.Text(reference) + "; multiple order found"
  }

  /** _alipay_form_get_tx_from_data: the one transaction whose reference is
      the notification's `out_trade_no`. */
  function TxFromData(records: seq<Tx>, data: Items): (r: Result<nat, Error>)
    ensures var reference, txnId := GetOr(data, "out_trade_no", Null), GetOr(data, "trade_no", Null);
            && (!Truthy(reference) || !Truthy(txnId) ==> r == Failure(ValidationError(MissingReference(reference, txnId))))
            && (r.Success? <==> Truthy(reference) && Truthy(txnId) && |Matching(records, reference)| == 1)
            && (r.Success? ==> r.value < |records| && Str(records[r.value].reference) == reference
                               && forall j :: 0 <= j < |records| && j != r.value ==> Str(records[j].reference) != reference)
            && (Truthy(reference) && Truthy(txnId) && Matching(records, reference) == [] ==>
                  r == Failure(ValidationError(NoOrder(reference))))
            && (Truthy(reference) && Truthy(txnId) && |Matching(records, reference)| > 1 ==>
                  r == Failure(ValidationError(MultipleOrders(reference))))
  {
    var reference, txnId := GetOr(data, "out_trade_no", Null), GetOr(data, "trade_no", Null);
    if !Truthy(reference) || !Truthy(txnId) then Failure(ValidationError(MissingReference(reference, txnId)))
    else
      var txs := Matching(records, reference);
      if txs == [] then Failure(ValidationError(NoOrder(reference)))
      else if |txs| > 1 then Failure(ValidationError(MultipleOrders(reference)))
      else
        assert forall j :: 0 <= j < |records| && Str(records[j].reference) == reference ==> j == txs[0];
        Success(txs[0])
  }

  /** `record.write(res)` */
  function Written(tx: Tx, res: Items): Tx {
    Tx(tx.reference, UpdateAll(tx.fields, res))
  }

  /** The host's form_feedback for Alipay: find the transaction, then
      validate it (the invalid-parameter list is always empty). */
  function Feedback(records: seq<Tx>, data: Items, now: Value): (r: Result<seq<Tx>, Error>)
    ensures r.Success? <==> TxFromData(records, data).Success?
  {
    var i :- TxFromData(records, data);
    Success(records[i := Written(records[i], FormValidateValues(records[i].reference, data, now))])
  }

  /** `write` stores every written value over the record's own. */
  lemma WrittenFields(tx: Tx, res: Items, k: string)
    requires UniqueKeys(tx.fields) && UniqueKeys(res)
    requires Lookup(res, k).Some?
    ensures Lookup(Written(tx, res).fields, k) == Lookup(res, k)
  {
    UpdateLookup(tx.fields, res);
  }

  /** Writing the validated values moves a transaction to `done` when paid
      and to `error` otherwise, and records `trade_no` as its acquirer reference. */
  lemma WrittenOutcome(tx: Tx, data: Items, now: Value)
    requires UniqueKeys(tx.fields)
    ensures var after := Written(tx, FormValidateValues(tx.reference, data, now));
            && StateOf(after.fields) == (if Paid(GetOr(data, "trade_status", Null)) then Done else Error)
            && Lookup(after.fields, "acquirer_reference") == Some(GetOr(data, "trade_no", Null))
  {
    var res := FormValidateValues(tx.reference, data, now);
    FormValidateReferences(tx.reference, data, now);
    WrittenFields(tx, res, "acquirer_reference");
    if Paid(GetOr(data, "trade_status", Null)) {
      FormValidatePaid(tx.reference, data, now);
    } else {
      FormValidateUnpaid(tx.reference, data, now);
    }
    assert Lookup(res, "state").Some?;
    WrittenFields(tx, res, "state");
    StateOfSame(Written(tx, res).fields, res);
  }

  lemma StateOfSame(a: Items, b: Items)
    requires Lookup(a, "state") == Lookup(b, "state")
    ensures StateOf(a) == StateOf(b)
  {
  }

  /** A notification that reaches transaction `i` moves it to `done` when
      paid and to `error` otherwise, records `trade_no` as its acquirer
      reference, and leaves every other transaction as it was. */
  lemma FeedbackOutcome(records: seq<Tx>, data: Items, now: Value, i: nat)
    requires forall j :: 0 <= j < |records| ==> UniqueKeys(records[j].fields)
    requires TxFromData(records, data) == Success(i)
    ensures var after := Feedback(records, data, now).value;
            && |after| == |records|
            && StateOf(after[i].fields) == (if Paid(GetOr(data, "trade_status", Null)) then Done else Error)
            && Lookup(after[i].fields, "acquirer_reference") == Some(GetOr(data, "trade_no", Null))
            && forall j :: 0 <= j < |records| && j != i ==> after[j] == records[j]
  {
    var tx := Written(records[i], FormValidateValues(records[i].reference, data, now));
    assert Feedback(records, data, now).value == records[i := tx];
    WrittenOutcome(records[i], data, now);
  }

  /** The payment.transaction table. */
  class TransactionStore {
    var records: seq<Tx>

    predicate Valid()
      reads this
    {
      forall i :: 0 <= i < |records| ==> UniqueKeys(records[i].fields)
    }

    constructor (init: seq<Tx>)
      requires forall i :: 0 <= i < |init| ==> UniqueKeys(init[i].fields)
      ensures Valid() && records == init
    {
      records := init;
    }

    /** _alipay_form_validate on record `i`: builds `res`, adds the
        outcome of the status, and writes it. `write` returns True. */
    method FormValidate(i: nat, data: Items, now: Value) returns (written: bool)
      requires Valid() && i < |records|
      modifies this
      ensures Valid() && written
      ensures records == old(records)[i := Written(old(records)[i], FormValidateValues(old(records)[i].reference, data, now))]
    {
      var tx := records[i];
      var status := GetOr(data, "trade_status", Null);
      ResThenOutcome(tx.reference, data, now);
      var res := new Dict(DictDisplay(ResDisplay(data)));
      if Paid(status) {
        res.Update([("state", Str("done")), ("date_validate", GetOr(data, "gmt_payment", now))]);
      } else {
        res.Update([("state", Str("error")), ("state_message", Str(UnrecognizedStatus(tx.reference, status)))]);
      }
      UpdateUnique(tx.fields, res.items);
      records := records[i := Written(tx, res.items)];
      written := true;
    }

    /** form_feedback: the ValidationError of a notification that does not
        single out a transaction propagates and nothing is written. */
    method FormFeedback(data: Items, now: Value) returns (r: Result<bool, Error>)
      requires Valid()
      modifies this
      ensures Valid()
      ensures Feedback(old(records), data, now).Success? ==>
                r == Success(true) && records == Feedback(old(records), data, now).value
      ensures Feedback(old(records), data, now).Failure? ==>
                r == Failure(Feedback(old(records), data, now).error) && records == old(records)
    {
      var found := TxFromData(records, data);
      if found.Failure? {
        return Failure(found.error);
      }
      var written := FormValidate(found.value, data, now);
      r := Success(written);
    }
  }
}

=== FILE: pydata.dfy ===
/** Python values and dictionaries as the payment module handles them.
    A dictionary is the sequence of its entries in insertion order, with
    unique keys; `Dict` is the mutable object that the code updates in place. */
module PyData {
  import opened Wrappers

  /** A value held in a request or notification dictionary: a string, an
      integer, Python's None, or a nested dictionary (entries in insertion order). */
  datatype Value = Str(s: string) | Int(i: int) | Null | Obj(fields: seq<(string, Value)>)

  /** The entries of a Python dict, in insertion order. */
  type Items = seq<(string, Value)>

  /** The exceptions the modelled code can raise. */
  datatype Error =
    | KeyError(key: string)             // d[k] on a missing key
    | AttributeError                    // `.encode` on a value that is not a string
    | TypeError                         // str + non-str, json.loads of a non-string
    | JsonDecodeError                   // json.loads of malformed text
    | Base64Error                       // binascii.Error raised by base64.decodebytes
    | ValidationError(message: string)  // the host framework's ValidationError

  predicate UniqueKeys(items: Items) {
    forall i, j :: 0 <= i < |items| && 0 <= j < |items| && items[i].0 == items[j].0 ==> i == j
  }

  /** `d.get(k)`: the value stored under `k`, if any. */
  function Lookup(items: Items, k: string): (r: Option<Value>)
    ensures r.None? <==> forall p :: p in items ==> p.0 != k
    ensures r.Some? ==> (k, r.value) in items
  {
    if items == [] then None
    else if items[0].0 == k then Some(items[0].1)
    else Lookup(items[1..], k)
  }

  /** `d.get(k, default)` */
  function GetOr(items: Items, k: string, default: Value): (r: Value)
    ensures Lookup(items, k).Some? ==> r == Lookup(items, k).value
    ensures Lookup(items, k).None? ==> r == default
  {
    match Lookup(items, k)
    case Some(v) => v
    case None => default
  }

  lemma UniqueTail(items: Items)
    requires UniqueKeys(items) && items != []
    ensures UniqueKeys(items[1..])
    ensures forall p :: p in items[1..] ==> p.0 != items[0].0
  {
    forall p | p in items[1..] ensures p.0 != items[0].0 {
      var j :| 0 <= j < |items[1..]| && items[1..][j] == p;
      assert items[j + 1] == p;
    }
  }

  /** In a dict every stored entry is what `get` finds. */
  lemma {:induction false} LookupFinds(items: Items, k: string, v: Value)
    requires UniqueKeys(items) && (k, v) in items
    ensures Lookup(items, k) == Some(v)
  {
    UniqueTail(items);
    if items[0] != (k, v) {
      LookupFinds(items[1..], k, v);
    }
  }

  /** The entry at position `i` of a dict is what `get` finds under its key. */
  lemma LookupAt(items: Items, i: nat)
    requires UniqueKeys(items) && i < |items|
    ensures Lookup(items, items[i].0) == Some(items[i].1)
  {
    LookupFinds(items, items[i].0, items[i].1);
  }

  /** `d.pop(k, None)`: the entries left are exactly those with another key. */
  function Remove(items: Items, k: string): (r: Items)
    ensures forall p :: p in r <==> p in items && p.0 != k
    ensures |r| <= |items|
  {
    if items == [] then []
    else if items[0].0 == k then Remove(items[1..], k)
    else [items[0]] + Remove(items[1..], k)
  }

  lemma {:induction false} RemoveUnique(items: Items, k: string)
    requires UniqueKeys(items)
    ensures UniqueKeys(Remove(items, k))
  {
    if items != [] {
      UniqueTail(items);
      RemoveUnique(items[1..], k);
      var rest := Remove(items[1..], k);
      if items[0].0 != k {
        var r := [items[0]] + rest;
        forall i, j | 0 <= i < |r| && 0 <= j < |r| && r[i].0 == r[j].0 ensures i == j {
          if i > 0 && j > 0 {
            assert r[i] == rest[i - 1] && r[j] == rest[j - 1];
          }
        }
      }
    }
  }

  lemma RemoveLookup(items: Items, k: string, k': string)
    requires UniqueKeys(items)
    ensures Lookup(Remove(items, k), k') == if k' == k then None else Lookup(items, k')
  {
    RemoveUnique(items, k);
    var r := Remove(items, k);
    if k' != k && Lookup(items, k').Some? {
      LookupFinds(r, k', Lookup(items, k').value);
    }
  }

  /** `d[k] = v`: replaces the value of an existing key where it stands,
      or appends a new entry at the end. */
  function Put(items: Items, k: string, v: Value): (r: Items)
    ensures Lookup(items, k).None? ==> r == items + [(k, v)]
    ensures Lookup(items, k).Some? ==> |r| == |items|
    ensures forall i :: 0 <= i < |items| ==> r[i] == if items[i].0 == k then (k, v) else items[i]
  {
    if Lookup(items, k).Some? then
      seq(|items|, i requires 0 <= i < |items| => if items[i].0 == k then (k, v) else items[i])
    else
      items + [(k, v)]
  }

  /** A key no entry carries is not found. */
  lemma LookupAbsent(items: Items, k: string)
    requires forall i :: 0 <= i < |items| ==> items[i].0 != k
    ensures Lookup(items, k).None?
  {
    forall p | p in items ensures p.0 != k {
      var i :| 0 <= i < |items| && items[i] == p;
    }
  }

  /** Assigning a key the dict does not hold appends it. */
  lemma PutNew(items: Items, k: string, v: Value)
    requires forall i :: 0 <= i < |items| ==> items[i].0 != k
    ensures Put(items, k, v) == items + [(k, v)]
  {
    LookupAbsent(items, k);
  }

  lemma PutLookup(items: Items, k: string, v: Value)
    requires UniqueKeys(items)
    ensures UniqueKeys(Put(items, k, v))
    ensures Lookup(Put(items, k, v), k) == Some(v)
    ensures forall k' :: k' != k ==> Lookup(Put(items, k, v), k') == Lookup(items, k')
  {
    var r := Put(items, k, v);
    assert UniqueKeys(r);
    if Lookup(items, k).Some? {
      var i :| 0 <= i < |items| && items[i] == (k, Lookup(items, k).value);
      assert r[i] == (k, v);
    } else {
      assert r[|items|] == (k, v);
    }
    LookupFinds(r, k, v);
    forall k' | k' != k ensures Lookup(r, k') == Lookup(items, k') {
      if Lookup(items, k').Some? {
        var i :| 0 <= i < |items| && items[i] == (k', Lookup(items, k').value);
        assert r[i] == items[i];
        LookupFinds(r, k', Lookup(items, k').value);
      }
    }
  }

  /** `d.update(kw)`: the entries of `kw` assigned in order. */
  function UpdateAll(items: Items, kw: Items): Items
    decreases kw
  {
    if kw == [] then items else UpdateAll(Put(items, kw[0].0, kw[0].1), kw[1..])
  }

  /** After `d.update(kw)` every key of `kw` holds its value from `kw`, every
      other key keeps its old value, and the dict still has unique keys. */
  lemma {:induction false} UpdateLookup(items: Items, kw: Items)
    requires UniqueKeys(items) && UniqueKeys(kw)
    ensures UniqueKeys(UpdateAll(items, kw))
    ensures forall k :: Lookup(UpdateAll(items, kw), k) ==
                        if Lookup(kw, k).Some? then Lookup(kw, k) else Lookup(items, k)
    decreases kw
  {
    if kw != [] {
      var next := Put(items, kw[0].0, kw[0].1);
      PutLookup(items, kw[0].0, kw[0].1);
      UniqueTail(kw);
      UpdateLookup(next, kw[1..]);
    }
  }

  /** `d.update(...)` keeps a dict's keys unique even when the entries
      assigned repeat a key, as a dict literal with a duplicate key does. */
  lemma {:induction false} UpdateUnique(items: Items, kw: Items)
    requires UniqueKeys(items)
    ensures UniqueKeys(UpdateAll(items, kw))
    decreases kw
  {
    if kw != [] {
      PutLookup(items, kw[0].0, kw[0].1);
      UpdateUnique(Put(items, kw[0].0, kw[0].1), kw[1..]);
    }
  }

  /** No key of `a` is a key of `b`. */
  predicate DisjointKeys(a: Items, b: Items) {
    forall i, j :: 0 <= i < |a| && 0 <= j < |b| ==> a[i].0 != b[j].0
  }

  /** Moving the first fresh entry over keeps the rest fresh and unique. */
  lemma FreshStep(items: Items, kw: Items)
    requires UniqueKeys(kw) && DisjointKeys(items, kw) && kw != []
    ensures UniqueKeys(kw[1..]) && DisjointKeys(items + [kw[0]], kw[1..])
  {
    var next, rest := items + [kw[0]], kw[1..];
    forall i, j | 0 <= i < |next| && 0 <= j < |rest| ensures next[i].0 != rest[j].0 {
      assert rest[j] == kw[j + 1];
      if i < |items| {
        assert next[i] == items[i];
      }
    }
    forall i, j | 0 <= i < |rest| && 0 <= j < |rest| && rest[i].0 == rest[j].0 ensures i == j {
      assert rest[i] == kw[i + 1] && rest[j] == kw[j + 1];
    }
  }

  /** Updating with a first entry whose key is new appends that entry first. */
  lemma UpdateHeadFresh(items: Items, kw: Items)
    requires DisjointKeys(items, kw) && kw != []
    ensures UpdateAll(items, kw) == UpdateAll(items + [kw[0]], kw[1..])
  {
    PutNew(items, kw[0].0, kw[0].1);
  }

  lemma AppendHead(items: Items, kw: Items)
    requires kw != []
    ensures items + [kw[0]] + kw[1..] == items + kw
  {
    assert kw == [kw[0]] + kw[1..];
  }

  /** Updating with entries whose keys are all new appends them in order. */
  lemma {:induction false} UpdateFresh(items: Items, kw: Items)
    requires UniqueKeys(kw) && DisjointKeys(items, kw)
    ensures UpdateAll(items, kw) == items + kw
    decreases kw
  {
    if kw != [] {
      UpdateHeadFresh(items, kw);
      FreshStep(items, kw);
      UpdateFresh(items + [kw[0]], kw[1..]);
      AppendHead(items, kw);
    }
  }

  /** Python truthiness: `not v` holds of '', 0, None and {}. */
  predicate Truthy(v: Value) {
    match v
    case Str(s) => s != ""
    case Int(i) => i != 0
    case Null => false
    case Obj(fs) => fs != []
  }

  function DigitChar(d: nat): (c: char)
    requires d < 10
    ensures '0' <= c <= '9'
  {
    ['0', '1', '2', '3', '4', '5', '6', '7', '8', '9'][d]
  }

  /** `str(n)` for a non-negative integer: its decimal digits. */
  function NatToString(n: nat): (r: string)
    ensures r != [] && forall c :: c in r ==> '0' <= c <= '9'
    decreases n
  {
    if n < 10 then [DigitChar(n)] else NatToString(n / 10) + [DigitChar(n % 10)]
  }

  /** `str(i)`: decimal digits, with a leading '-' for a negative integer. */
  function IntToString(i: int): (r: string)
    ensures r != []
    ensures forall c :: c in r ==> c == '-' || '0' <= c <= '9'
  {
    if i < 0 then "-" + NatToString(-i) else NatToString(i)
  }

  /** A Python dict object, mutated in place by the code that holds it. */
  class Dict {
    var items: Items

    predicate Valid()
      reads this
    {
      UniqueKeys(items)
    }

    /** `dict(init)`: a fresh dict with the same entries. */
    constructor (init: Items)
      requires UniqueKeys(init)
      ensures Valid() && items == init
    {
      items := init;
    }

    /** `d.pop(k, default)` */
    method Pop(k: string, default: Value) returns (v: Value)
      requires Valid()
      modifies this
      ensures Valid()
      ensures v == GetOr(old(items), k, default)
      ensures items == Remove(old(items), k)
    {
      v := GetOr(items, k, default);
      RemoveUnique(items, k);
      items := Remove(items, k);
    }

    /** `d[k] = v` */
    method Set(k: string, v: Value)
      requires Valid()
      modifies this
      ensures Valid()
      ensures items == Put(old(items), k, v)
    {
      PutLookup(items, k, v);
      items := Put(items, k, v);
    }

    /** `d.update(kw)` */
    method Update(kw: Items)
      requires Valid() && UniqueKeys(kw)
      modifies this
      ensures Valid()
      ensures items == UpdateAll(old(items), kw)
    {
      UpdateLookup(items, kw);
      items := UpdateAll(items, kw);
    }
  }
}

=== FILE: routes.dfy ===
/** The URLs the controller of controllers/main.py is mounted on and the
    notification-confirmation endpoints it queries. */
module Routes {
  /** Where Alipay posts asynchronous notifications. */
  const NotifyPath := "/payment/alipay/notify.html"

  /** Where the buyer's browser comes back after paying. */
  const ReturnPath := "/payment/alipay/return.html"

  /** Confirmation endpoint used when the acquirer's transport is https. */
  const HttpsVerifyUrl := "https://mapi.alipay.com/gateway.do?service=notify_verify&"

  /** Confirmation endpoint used otherwise. */
  const HttpVerifyUrl := "http://notify.alipay.com/trade/notify_query.do?"
}

=== FILE: wrappers.dfy ===
/** Optional values and results that carry either a value or a raised exception. */
module Wrappers {

  datatype Option<+T> = None | Some(value: T)

  datatype Result<+T, +E> = Success(value: T) | Failure(error: E) {

    predicate IsFailure() {
      Failure?
    }

    function PropagateFailure<U>(): Result<U, E>
      requires Failure?
    {
      Failure(error)
    }

    function Extract(): T
      requires Success?
    {
      value
    }
  }
}
